=== FILE: README.md ===
# GSP ABI checker — a Dafny model of its decision engine

The GSP ABI checker is a GCC plugin. It runs while one translation unit,
`gsp_abi_check.c`, is compiled. From that unit it writes a C file of static
assertions. That file stops compiling as soon as the layout of a listed
struct, the value of a listed enum member, or the text of a listed macro
changes in a way its policy does not allow. This guards the ABI between the
GSP firmware and the host driver.

This project models the logic under the compiler plumbing. The compiler's
trees are replaced by plain descriptors (`Abi.TypeDesc`, `Abi.Identifier`).
The written file is a sequence of `Abi.Line` records. The model covers:

- **Allow-list matching** (`AllowList`): `is_wanted` checks exact names, then
  prefixes. The prefix test is modelled as the literal `strncmp` over C
  strings, and is proved equal to "is a prefix of".
- **Extraction** (`Extract`): `Struct(tree)` drops unnamed fields, and
  `Enum(tree)` drops valueless enumerators with a warning.
- **Macro definitions** (`MacroDef`): a definition is split at its first
  space, and leading spaces are stripped from the value.
- **The catalog** (`Collector`): the insertion rules of
  `finish_type_callback`, and the scan of the identifier table for macros.
- **Rendering** (`Render`): `Struct::print`, `Enum::print` and
  `Macro::print`, with the exact and growable assertion forms. The loop over
  the catalog (`Render.RenderAll`) takes any list of keys. The source only
  iterates over the catalog's own keys, so a key absent from the catalog
  writes nothing.
- **Assertion meaning** (`Semantics`): what each of the six `ABI_CHECK_*`
  forms that are written out demands of a later build, and when a written
  `#define` is accepted (no macro of that name is defined differently). The
  preamble defines a seventh form, `ABI_CHECK_OFFSET`, which is never written
  on its own: it is the offset half of `ABI_CHECK_FIELD` and
  `ABI_CHECK_FIELD_FLEXIBLE`, and its check (the field is at the recorded
  offset) is folded into the meaning of those two. With it, the growth and
  exactness policies are stated as "which later layouts still pass".
- **End of the unit** (`Driver`): the missing-symbol warnings, then every
  entry rendered in ascending name order.

Strings are `seq<char>` and are ordered like `std::string`: character by
character, by code (`Strings.Less`). Iterating a `std::set` or `std::map` of
strings is modelled as the unique strictly ascending enumeration of its keys
(`Strings.SortSet`, `Strings.AscendingUnique`).

Four behaviours of the code are worth noting:

- A macro whose definition contains no space is still recorded under its
  identifier, with an empty name and value
  (nouveau/gsp-abi-checker.cpp:131-136, 210-211). Its `#define` line then has
  an empty name and an empty body (`Driver.SpacelessMacroLine`).
- The flexible-tail form `ABI_CHECK_FIELD_FLEXIBLE` goes to an unknown-size
  field named like the last field, whatever the struct's growth policy
  (nouveau/gsp-abi-checker.cpp:112-116).
- `ABI_CHECK_ENUM_VAL_EQ` and `ABI_CHECK_ENUM_VAL_GE` ignore their first
  argument, the enum's name (nouveau/gsp-abi-checker.cpp:294-295). They only
  compare the enumerator constant, which C looks up in its one scope of
  ordinary identifiers. A renamed enum whose members keep their values
  therefore passes (`Semantics.EnumNameNotChecked`).
- A non-last field of unknown size is written as `ABI_CHECK_FIELD` with size
  -1, the value `%ld` prints for `~0`, and a warning is printed as well
  (nouveau/gsp-abi-checker.cpp:113-120). No build satisfies that assertion
  (`Semantics.UnresolvedStructNeverHolds`).

## Model

| member | source | states |
|---|---|---|
| AllowList.IsWanted | nouveau/gsp-abi-checker.cpp:41-51 | an exact-listed name is always wanted; with no prefixes listed, only the exact-listed names are wanted (the full iff is `AllowList.IsWantedIff`) |
| AllowList.MatchesSomePrefix | nouveau/gsp-abi-checker.cpp:45-49 | the prefix loop succeeds iff some prefix in the list compares equal with `strncmp` over the prefix's length |
| AllowList.StrncmpIsPrefix | nouveau/gsp-abi-checker.cpp:46 | for a NUL-free prefix, `strncmp(name, prefix, prefix.size()) == 0` iff the prefix begins the name, including when the name is shorter |
| AllowList.IsWantedIff | nouveau/gsp-abi-checker.cpp:41-51 | a name is wanted iff it is in the exact set or some listed prefix begins it |
| AllowList.EmptyPrefixMakesAllWanted | nouveau/gsp-abi-checker.cpp:45-49 | an empty prefix in the list makes every name wanted |
| MacroDef.FirstSpace | nouveau/gsp-abi-checker.cpp:131 | finds the first space: every earlier character is not a space; finds nothing iff the text has no space |
| MacroDef.SkipSpaces | nouveau/gsp-abi-checker.cpp:133-134 | the result is a suffix of the input, everything removed is a space, and the result does not start with a space |
| MacroDef.FromDefinition | nouveau/gsp-abi-checker.cpp:130-137 | with a space: the name has no space, the value does not start with a space, and name + one or more spaces + value rebuilds the definition; without a space: name and value are both empty |
| MacroDef.JoinThenSplit | nouveau/gsp-abi-checker.cpp:130-137 | splitting is the inverse of joining a space-free name, one or more spaces, and a value not starting with a space |
| Extract.NamedFields | nouveau/gsp-abi-checker.cpp:92-101 | every named field is kept with its size and offset; if all fields are named the list is kept position by position; if none is named the list is empty |
| Extract.NamedFieldsOrigin | nouveau/gsp-abi-checker.cpp:92-101 | nothing else is kept: every kept field is the name, size and offset of a named field descriptor |
| Extract.NamedFieldsAppend | nouveau/gsp-abi-checker.cpp:92-101 | dropping unnamed fields commutes with concatenation, so named fields keep their declaration order |
| Extract.Valued | nouveau/gsp-abi-checker.cpp:151-164 | every enumerator with a value is kept with that value, and there are never more members than enumerators |
| Extract.ValuedOrigin | nouveau/gsp-abi-checker.cpp:151-164 | only enumerators that have a value are kept, each with its own name and value |
| Extract.Valueless | nouveau/gsp-abi-checker.cpp:152-154 | the only warning is "No value for field", and warnings plus kept members account for every enumerator |
| Extract.ValuedAppend | nouveau/gsp-abi-checker.cpp:151-164 | dropping valueless enumerators commutes with concatenation, so members keep their declaration order |
| Extract.Build | nouveau/gsp-abi-checker.cpp:189-200 | a type yields an entry iff it is named and is an enum or a record of known size; the entry carries the type's own name; a record becomes a struct of its size and named fields, an enum becomes an enum of its valued members |
| Collector.FinishType | nouveau/gsp-abi-checker.cpp:182-203 | never replaces an entry; a new key is wanted and is the type's own name; a null, unnamed or non-record, non-enum type changes nothing; a record of unknown size changes nothing; a named, wanted, new enum or known-size record is added; struct and enum entries stay under their own name; a warning comes only from an enum that is then in the catalog |
| Collector.CollectTypes | nouveau/gsp-abi-checker.cpp:182-203 | over a whole stream of type events, no entry is replaced; every new key is wanted and holds what the first recordable event of that name builds, later events of that name being ignored; every recordable event of a wanted name ends up in the catalog |
| Collector.FinishTypeWarnings | nouveau/gsp-abi-checker.cpp:189-199 | one type event warns "No value for field" once per valueless enumerator exactly when it is a wanted enum whose name is not yet in the catalog, and otherwise not at all |
| Collector.CollectTypesWarnings | nouveau/gsp-abi-checker.cpp:182-203 | the warnings of a stream of type events are, in event order, those of each enum that is the first recordable event of a wanted name not already catalogued; later events of that name and every other event warn nothing |
| Collector.RecordMacro | nouveau/gsp-abi-checker.cpp:208-212 | one identifier: no entry is replaced; a new key can only be this identifier, wanted and a macro, holding the split of its definition; a wanted macro is always present afterwards |
| Collector.ScanMacros | nouveau/gsp-abi-checker.cpp:207-215 | never replaces an entry; each new key is a wanted macro identifier, holding the split of that identifier's own definition; every wanted macro identifier ends up in the catalog |
| Collector.SpacelessDefinitionStillRecorded | nouveau/gsp-abi-checker.cpp:209-211 | a wanted macro whose definition has no space is recorded under its identifier with an empty name and value |
| Scenarios.MacroScannedAndWritten | nouveau/gsp-abi-checker.cpp:207-225 | the exact-listed macro `FOO`, defined as `FOO 1+2`, is scanned into the catalog and written back as `#define FOO 1+2`, unevaluated |
| Render.RenderStruct | nouveau/gsp-abi-checker.cpp:104-123 | one size line, first, then one non-size line per field; no more warnings than fields (which fields warn, once each and in order, is `Render.FieldWarningsAppend`) |
| Render.RenderEnum | nouveau/gsp-abi-checker.cpp:167-178 | one `ENUM_VAL_EQ` or `ENUM_VAL_GE` line per member, in order, carrying that member's name and value; an enum not listed as extendible gets only `ENUM_VAL_EQ` lines |
| Render.Render | nouveau/gsp-abi-checker.cpp:104-178 | every line written for an entry is about that entry's name; a struct writes one line more than it has fields; an enum writes one line per member and no warning; a macro writes exactly one `#define` of its name and value and no warning |
| Render.FieldWarningsAppend | nouveau/gsp-abi-checker.cpp:112-120 | the field loop warns field by field in field order: the warnings for `a + b` are those for `a` followed by those for `b`, and one field warns exactly once when its size is unknown and it is not named like the last field, and otherwise not at all |
| Render.FieldWarningsContents | nouveau/gsp-abi-checker.cpp:113-119 | a "size unknown" warning is printed for every field of unknown size not named like the last field, and for no other field |
| Render.StructRenderShape | nouveau/gsp-abi-checker.cpp:104-121 | exactly one size assertion, first: `SIZE_GE` iff the struct is flexible, else `SIZE_EQ`, with the recorded size; then one line per field, naming that field and its offset |
| Render.FlexibleTailOnlyLast | nouveau/gsp-abi-checker.cpp:112-121 | with distinct field names, a field gets `FIELD_FLEXIBLE` iff it is last and of unknown size, whatever the policy; every other field gets `FIELD` with its recorded offset and size; only non-last unknown-size fields are warned about |
| Render.EnumRenderShape | nouveau/gsp-abi-checker.cpp:167-178 | one line per member in declaration order, carrying its name and value; `ENUM_VAL_GE` iff the enum is extendible and the member is last |
| Render.EnumAppendRender | nouveau/gsp-abi-checker.cpp:169-176 | appending a member to an extendible enum keeps the earlier lines; the former last member's `GE` line becomes `EQ`; the new member gets `GE` |
| Render.FieldLinesKnownPrefix | nouveau/gsp-abi-checker.cpp:112-121 | fields appended after fields of known size leave the earlier fields' lines unchanged, whichever field ends up last |
| Render.StructAppendRender | nouveau/gsp-abi-checker.cpp:112-121 | appending fields after fields of known size leaves every earlier field line unchanged |
| Render.RenderAll | nouveau/gsp-abi-checker.cpp:223-225 | a key list naming no catalogued key writes nothing and warns nothing |
| Render.RenderAllContents | nouveau/gsp-abi-checker.cpp:223-225 | the output holds the lines of every listed entry, and nothing else |
| Render.RenderAllAppend | nouveau/gsp-abi-checker.cpp:223-225 | entries are written as whole blocks in key order: the lines for `a + b` are the lines for `a` followed by the lines for `b` |
| Render.RenderAllSingle | nouveau/gsp-abi-checker.cpp:224 | a single key writes exactly its own entry's block |
| Semantics.StructAssertionsMeaning | nouveau/gsp-abi-checker.cpp:104-121 | for every struct, its assertions all pass iff a later build has the same size (exact policy) or at least that size (growable policy), and keeps every recorded field's offset and size; a flexible tail only needs its offset, within the struct; a non-tail field of unknown size can never be kept |
| Semantics.UnresolvedStructNeverHolds | nouveau/gsp-abi-checker.cpp:113-120 | a struct with a non-tail field of unknown size, written with size -1, has assertions that no build passes |
| Semantics.EnumAssertionsMeaning | nouveau/gsp-abi-checker.cpp:294-295 | for an enum with distinct member names, its assertions all pass iff the build defines every recorded member as a constant with its value, in whichever enum; the last member of an extendible enum may instead have grown |
| Semantics.EnumNameNotChecked | nouveau/gsp-abi-checker.cpp:294-295 | the enum named in an assertion is not consulted: the same members written under another name of the same policy pass or fail alike |
| Semantics.RenderedEnumHoldsForItself | nouveau/gsp-abi-checker.cpp:167-178 | the assertions written for an enum with distinct member names pass against a build holding that enum |
| Semantics.GrowableStructToleratesAppend | nouveau/gsp-abi-checker.cpp:106-111 | a flexible struct passes its old assertions after fields are appended and it grows; an exact struct fails them once its size changes |
| Semantics.GrowableEnumToleratesInsertBeforeLast | nouveau/gsp-abi-checker.cpp:170-175 | an extendible enum passes its old assertions when members are inserted before a growing last member; an exact enum fails them once the last value changes, in a build where no two enums define a constant of the same name |
| Semantics.RenderedStructHoldsForItself | nouveau/gsp-abi-checker.cpp:292-302 | the assertions written for a struct with distinct field names, offsets within its size and only a tail of unknown size pass against that struct itself |
| Scenarios.SourcePolicyGrowableStruct | nouveau/gsp-abi-checker.cpp:53-67 | under the source's own growth list, `GspSystemInfo` is written with `SIZE_GE` |
| Scenarios.SourcePolicyExtendibleEnum | nouveau/gsp-abi-checker.cpp:68-71 | under the source's own list, the last member of `NV_VGPU_MSG_EVENT` gets `ENUM_VAL_GE` and that of an unlisted enum gets `ENUM_VAL_EQ` |
| Strings.SortSet | nouveau/gsp-abi-checker.cpp:217-225 | enumerates a set of names in strictly ascending order, each exactly once |
| Strings.AscendingUnique | nouveau/gsp-abi-checker.cpp:223-225 | two strictly ascending enumerations of the same names are equal |
| Driver.MissingFrom | nouveau/gsp-abi-checker.cpp:217-221 | keeps exactly the listed names absent from the catalog, and keeps ascending order |
| Driver.MissingWarnings | nouveau/gsp-abi-checker.cpp:217-221 | one "Missing wanted symbol" warning per name, in the same order, each naming its symbol |
| Driver.SpacelessMacroLine | nouveau/gsp-abi-checker.cpp:131-142 | a wanted macro whose definition holds no space is written as a `#define` with an empty name and an empty body |
| Driver.MacroWritesDefine | nouveau/gsp-abi-checker.cpp:128-142 | the macro is redefined with the definition it was read from: a wanted macro whose definition holds a space is written as one `#define` of a space-free name and a value not starting with a space, and name, one or more spaces and value rebuild the definition |
| Driver.DefinitionWrittenBack | nouveau/gsp-abi-checker.cpp:128-142 | conversely, a definition made of a space-free name, one or more spaces and a value not starting with a space is written back as the `#define` of exactly that name and value |
| Driver.Finalize | nouveau/gsp-abi-checker.cpp:217-225 | each exact-listed name absent from the catalog gets one "Missing wanted symbol" warning, in ascending order and before the rendering warnings, and no present name does; every entry is written once, in strictly ascending key order |
| Driver.OutputDeterminedByCatalog | nouveau/gsp-abi-checker.cpp:223-225 | the written output depends only on the catalog |
| Driver.UnitCatalogKeys | nouveau/gsp-abi-checker.cpp:182-215 | the catalog at the end of a unit holds only wanted names, each from a type event or a macro identifier, and holds every wanted recordable type and every wanted macro |
| Driver.Run | nouveau/gsp-abi-checker.cpp:182-225 | over a whole unit: the catalog is the type events' catalog extended by the macro scan; the written keys are exactly that catalog's keys, and the lines are that catalog rendered in that order; every written key is wanted and came from a type event or a macro identifier; every wanted recordable type and every wanted macro is written; the missing names are exactly the exact-listed names not written, each warned about first, and the warnings after them are exactly those of rendering the catalog in that order |

## Left out

- Reading GCC trees (`IDENTIFIER_POINTER`, `int_size_in_bytes`, `byte_position`, `TYPE_FIELDS`, `TYPE_VALUES`, `TREE_INT_CST_LOW`). These are compiler internals. The model starts from descriptors already read from them. The 64-bit truncation of `TREE_INT_CST_LOW` is not modelled: sizes, offsets and enum values are unbounded integers.
- The enum "not an integer" filter (nouveau/gsp-abi-checker.cpp:156). Its condition `!TREE_CODE(...) == INTEGER_CST` can never hold, so it never skips anything. Only the "no value" skip is modelled.
- Plugin registration, the GCC version check, and selecting `gsp_abi_check.c` as the only unit to act on (nouveau/gsp-abi-checker.cpp:307-333). This is host-callback setup.
- Opening, writing and closing the output file, `fprintf` formatting, and the "Failed to open output file" error. Output is a sequence of `Line` records.
- The preamble text written before the assertions (nouveau/gsp-abi-checker.cpp:231-305). Only what its seven `ABI_CHECK_*` definitions assert is modelled, in `Semantics`: six as the meaning of the line kinds written out, and `ABI_CHECK_OFFSET` as part of the two field forms that expand to it.
- Semantics.GrowableEnumToleratesInsertBeforeLast: the exact-policy failure is promised only for builds in which no two enums define a constant of the same name. An enum assertion finds its constant in any enum, and C rejects such a build anyway.
- The comment lines ("Appending to the end ... is okay.") and blank lines around each rendered entry. They do not affect what is checked.
- The order of `cpp_forall_identifiers`. The identifier table is taken as a sequence in any order. Identifiers that are not macros carry no definition.
- Memory ownership (`new`, `delete`, raw pointers) and the `wanted.h` include machinery that fills `wanted` and `wanted_prefix`. The allow-list is a parameter. The growth policy sets are parameters too, and the source's own values are given as `Abi.SourceFlexible` and `Abi.SourceExtendibleEnums`.
- Warnings are modelled as values in the order they are produced, separately from the output lines. How the two streams interleave is not modelled.

=== FILE: abi.dfy ===
/** The data the checker works on: the type descriptors the compiler hands it
    once a declaration is finished, the records it keeps in its catalog, the
    assertion lines it writes, and the warnings it prints. */
module Abi {
  import opened Optional
  import opened AllowList

  /** A size in bytes as `int_size_in_bytes` reports it: a number, or unknown
      (reported as -1, which the source compares against `~0`). */
  datatype Size = Known(bytes: nat) | Unknown

  /** The value `%ld` prints for a size: the byte count, or -1 for unknown. */
  function SizeArg(s: Size): int {
    match s
    case Known(n) => n
    case Unknown => -1
  }

  // ---- What the compiler hands over when a type is finished ----

  /** A field of a record type: its name (absent for an unnamed field), byte
      offset and byte size. */
  datatype FieldDesc = FieldDesc(name: Option<string>, offset: nat, size: Size)

  /** An enumerator of an enumeral type; its value may be missing. */
  datatype EnumeratorDesc = EnumeratorDesc(name: string, value: Option<int>)

  /** A finished type, reduced to what the checker reads of it. */
  datatype TypeDesc =
    | RecordType(name: Option<string>, size: Size, fields: seq<FieldDesc>)
    | EnumeralType(name: Option<string>, enumerators: seq<EnumeratorDesc>)
    | OtherType(name: Option<string>)

  /** An entry of the preprocessor's identifier table: its name, and the text
      of its macro definition when it names a macro. */
  datatype Identifier = Identifier(name: string, definition: Option<string>)

  // ---- What the checker records ----

  datatype Field = Field(name: string, size: Size, offset: nat)

  datatype Enumerator = Enumerator(name: string, value: int)

  /** A catalog entry: `Struct`, `Enum` or `Macro`. */
  datatype Entry =
    | StructEntry(name: string, size: nat, fields: seq<Field>)
    | EnumEntry(name: string, values: seq<Enumerator>)
    | MacroEntry(name: string, value: string)

  /** The catalog `all`, keyed by the name the symbol was found under. */
  type Catalog = map<string, Entry>

  // ---- What the checker writes ----

  /** One line of the generated file. */
  datatype Line =
    | SizeEq(typeName: string, size: nat)                          // ABI_CHECK_SIZE_EQ
    | SizeGe(typeName: string, size: nat)                          // ABI_CHECK_SIZE_GE
    | FieldCheck(typeName: string, field: string, offset: nat, fieldSize: int)  // ABI_CHECK_FIELD
    | FieldFlexible(typeName: string, field: string, offset: nat)  // ABI_CHECK_FIELD_FLEXIBLE
    | EnumValEq(typeName: string, member: string, value: int)      // ABI_CHECK_ENUM_VAL_EQ
    | EnumValGe(typeName: string, member: string, value: int)      // ABI_CHECK_ENUM_VAL_GE
    | Define(macro: string, body: string)                          // #define macro body

  /** A diagnostic printed with the "WARNING: " prefix. */
  datatype Warning =
    | NoValueForField
    | FieldSizeUnknown(typeName: string, field: string)
    | MissingSymbol(name: string)

  /** Lines and warnings produced together. */
  datatype Output = Output(lines: seq<Line>, warnings: seq<Warning>)

  // ---- Configuration ----

  /** The allow-list plus the two growth policies: structs that may grow by
      appending (`flexible`) and enums whose last member may grow
      (`extendible_enums`). */
  datatype Config = Config(allow: AllowList, flexible: set<string>, extendibleEnums: set<string>)

  /** The structs the source declares growable. */
  const SourceFlexible: set<string> := {
    "GspStaticConfigInfo",
    "GspSystemInfo",
    "rpc_alloc_memory_v13_01",
    "rpc_free_v03_00",
    "rpc_gsp_rm_alloc_v03_00",
    "rpc_gsp_rm_control_v03_00",
    "rpc_os_error_log_v17_00",
    "rpc_post_event_v17_00",
    "rpc_rc_triggered_v17_02",
    "rpc_run_cpu_sequencer_v17_00",
    "rpc_unloading_guest_driver_v1F_07",
    "rpc_update_bar_pde_v15_00"
  }

  /** The enums the source declares growable. */
  const SourceExtendibleEnums: set<string> := {"NV_VGPU_MSG_FUNCTION", "NV_VGPU_MSG_EVENT"}

}

=== FILE: allow_list.dfy ===
/** The allow-list matcher `is_wanted`: a name is in scope when it is one of
    the exact names or begins with one of the prefixes. The prefix test is the
    source's `strncmp(name, prefix, prefix.size()) == 0`, modelled over C
    strings, and proved to be the plain prefix relation. */
module AllowList {
  import opened Strings

  /** The names the checker looks for: the exact-name set `wanted` and the
      prefix list `wanted_prefix`, both filled from a list of symbols that is
      not part of this model. */
  datatype AllowList = AllowList(exact: set<string>, prefixes: seq<string>)

  /** A C string holds no NUL character before its terminator. */
  predicate NulFree(s: string) {
    forall i :: 0 <= i < |s| ==> s[i] != '\0'
  }

  /** Character i of the C string s; at and past the end, its terminating NUL. */
  function CharAt(s: string, i: nat): char {
    if i < |s| then s[i] else '\0'
  }

  /** `strncmp(a, b, n) == 0` judged from position i on: characters are
      compared up to position n, and the comparison stops early, equal, when
      both strings end at the same position. */
  function StrncmpEqual(a: string, b: string, n: nat, i: nat): bool
    decreases n - i
  {
    if i >= n then true
    else if CharAt(a, i) != CharAt(b, i) then false
    else if CharAt(a, i) == '\0' then true
    else StrncmpEqual(a, b, n, i + 1)
  }

  /** From position i on, comparing `|prefix|` characters succeeds exactly when
      `name` agrees with `prefix` at every remaining position of `prefix`. */
  lemma {:induction false} StrncmpAgreesFrom(name: string, prefix: string, i: nat)
    requires NulFree(prefix)
    requires i <= |prefix|
    ensures StrncmpEqual(name, prefix, |prefix|, i)
            <==> forall k :: i <= k < |prefix| ==> CharAt(name, k) == prefix[k]
    decreases |prefix| - i
  {
    if i < |prefix| {
      StrncmpAgreesFrom(name, prefix, i + 1);
    }
  }

  /** A shorter name disagrees with a NUL-free prefix at its own terminator. */
  lemma NulAtEnd(name: string, prefix: string)
    requires NulFree(prefix) && |name| < |prefix|
    ensures !(forall k :: 0 <= k < |prefix| ==> CharAt(name, k) == prefix[k])
  {
    assert CharAt(name, |name|) != prefix[|name|];
  }

  /** `strncmp(name, prefix, prefix.size()) == 0` holds exactly when `prefix`
      is a prefix of `name`, for any NUL-free prefix. */
  lemma StrncmpIsPrefix(name: string, prefix: string)
    requires NulFree(prefix)
    ensures StrncmpEqual(name, prefix, |prefix|, 0) <==> IsPrefix(prefix, name)
  {
    StrncmpAgreesFrom(name, prefix, 0);
    if StrncmpEqual(name, prefix, |prefix|, 0) {
      assert |prefix| <= |name| by {
        if |name| < |prefix| {
          NulAtEnd(name, prefix);
          assert false;
        }
      }
      assert name[..|prefix|] == prefix by {
        forall k | 0 <= k < |prefix|
          ensures name[k] == prefix[k]
        {
          assert CharAt(name, k) == prefix[k];
        }
      }
    }
    if IsPrefix(prefix, name) {
      forall k | 0 <= k < |prefix|
        ensures CharAt(name, k) == prefix[k]
      {
        assert name[..|prefix|][k] == prefix[k];
      }
    }
  }

  /** Every prefix is a C string. */
  predicate ValidPrefixes(prefixes: seq<string>) {
    forall i :: 0 <= i < |prefixes| ==> NulFree(prefixes[i])
  }

  /** The loop over `wanted_prefix`: true as soon as one prefix compares equal
      over its own length. */
  function MatchesSomePrefix(prefixes: seq<string>, name: string): (r: bool)
    ensures r <==> exists i :: 0 <= i < |prefixes| && StrncmpEqual(name, prefixes[i], |prefixes[i]|, 0)
  {
    if |prefixes| == 0 then false
    else if StrncmpEqual(name, prefixes[0], |prefixes[0]|, 0) then true
    else
      var r := MatchesSomePrefix(prefixes[1..], name);
      assert r ==> exists i :: 0 <= i < |prefixes| && StrncmpEqual(name, prefixes[i], |prefixes[i]|, 0) by {
        if r {
          var i :| 0 <= i < |prefixes[1..]| && StrncmpEqual(name, prefixes[1..][i], |prefixes[1..][i]|, 0);
          assert prefixes[1..][i] == prefixes[i + 1];
        }
      }
      assert (exists i :: 0 <= i < |prefixes| && StrncmpEqual(name, prefixes[i], |prefixes[i]|, 0)) ==> r by {
        if exists i :: 0 <= i < |prefixes| && StrncmpEqual(name, prefixes[i], |prefixes[i]|, 0) {
          var i :| 0 <= i < |prefixes| && StrncmpEqual(name, prefixes[i], |prefixes[i]|, 0);
          assert i != 0;
          assert prefixes[1..][i - 1] == prefixes[i];
        }
      }
      r
  }

  /** Over NUL-free prefixes the scan finds a match exactly when some prefix
      begins the name. */
  lemma MatchesSomePrefixIsPrefix(prefixes: seq<string>, name: string)
    requires ValidPrefixes(prefixes)
    ensures MatchesSomePrefix(prefixes, name) <==> exists p :: p in prefixes && IsPrefix(p, name)
  {
    forall i | 0 <= i < |prefixes|
      ensures StrncmpEqual(name, prefixes[i], |prefixes[i]|, 0) <==> IsPrefix(prefixes[i], name)
    {
      StrncmpIsPrefix(name, prefixes[i]);
    }
  }

  /** `is_wanted`: the exact-name lookup, then the prefix scan. An
      exact-listed name is always wanted; with no prefixes, nothing else is. */
  function IsWanted(a: AllowList, name: string): (r: bool)
    ensures name in a.exact ==> r
    ensures a.prefixes == [] ==> (r <==> name in a.exact)
  {
    name in a.exact || MatchesSomePrefix(a.prefixes, name)
  }

  /** A name is wanted exactly when it is an exact name or some prefix begins
      it. */
  lemma IsWantedIff(a: AllowList, name: string)
    requires ValidPrefixes(a.prefixes)
    ensures IsWanted(a, name) <==> name in a.exact || exists p :: p in a.prefixes && IsPrefix(p, name)
  {
    MatchesSomePrefixIsPrefix(a.prefixes, name);
  }

  /** An empty prefix in the list puts every name in scope: `strncmp` over zero
      characters always reports equality. */
  lemma EmptyPrefixMakesAllWanted(a: AllowList, name: string)
    requires "" in a.prefixes
    ensures IsWanted(a, name)
  {
    var i :| 0 <= i < |a.prefixes| && a.prefixes[i] == "";
    assert StrncmpEqual(name, a.prefixes[i], |a.prefixes[i]|, 0);
  }

}

=== FILE: collector.dfy ===
/** Filling the catalog `all`: the insertion rules of `finish_type_callback`
    for finished types, and the scan of the identifier table for macros at the
    end of the unit. The first entry recorded under a name is never replaced. */
module Collector {
  import opened Optional
  import opened AllowList
  import opened Abi
  import opened MacroDef
  import opened Extract

  /** Every entry of `before` is still in `after`, unchanged. */
  predicate Keeps(before: Catalog, after: Catalog) {
    forall k :: k in before ==> k in after && after[k] == before[k]
  }

  /** Every struct and enum entry is stored under its own name. (A macro entry
      is stored under its identifier, whatever name its definition parses to.) */
  predicate TypesUnderOwnName(cat: Catalog) {
    forall k :: k in cat && !cat[k].MacroEntry? ==> cat[k].name == k
  }

  /** A catalog and the warnings produced while extending it. */
  datatype Step = Step(catalog: Catalog, warnings: seq<Warning>)

  /** `finish_type_callback`: a named, wanted type not yet in the catalog is
      recorded if it is an enum or a record of known size; nothing else
      changes the catalog. `t` is `None` for a null tree. */
  function FinishType(allow: AllowList, cat: Catalog, t: Option<TypeDesc>): (r: Step)
    ensures Keeps(cat, r.catalog)
    ensures forall k :: k in r.catalog && k !in cat ==> IsWanted(allow, k) && t.Some? && t.value.name == Some(k)
    ensures forall k :: k in r.catalog && k !in cat ==> Build(t.value) == Some(r.catalog[k])
    ensures t.None? || t.value.name.None? || t.value.OtherType? ==> r == Step(cat, [])
    ensures t.Some? && t.value.RecordType? && t.value.size.Unknown? ==> r.catalog == cat
    ensures t.Some? && t.value.name.Some? && t.value.name.value in cat ==> r.catalog == cat
    ensures t.Some? && t.value.name.Some? && IsWanted(allow, t.value.name.value) && t.value.name.value !in cat
            && (t.value.EnumeralType? || (t.value.RecordType? && t.value.size.Known?))
            ==> t.value.name.value in r.catalog
    ensures TypesUnderOwnName(cat) ==> TypesUnderOwnName(r.catalog)
    ensures r.warnings != [] ==> t.Some? && t.value.EnumeralType? && t.value.name.Some? && t.value.name.value in r.catalog
  {
    match t
    case None => Step(cat, [])
    case Some(ty) =>
      match ty.name
      case None => Step(cat, [])
      case Some(n) =>
        if IsWanted(allow, n) && n !in cat then
          match Build(ty)
          case Some(e) =>
            var w := if ty.EnumeralType? then Valueless(ty.enumerators) else [];
            Step(cat[n := e], w)
          case None => Step(cat, [])
        else Step(cat, [])
  }

  /** The warnings of `finish_type_callback`: the "No value for field"
      warnings of a wanted enum that is new to the catalog, and none for any
      other event. */
  lemma FinishTypeWarnings(allow: AllowList, cat: Catalog, t: Option<TypeDesc>)
    ensures FinishType(allow, cat, t).warnings
            == if t.Some? && t.value.EnumeralType? && t.value.name.Some?
                  && IsWanted(allow, t.value.name.value) && t.value.name.value !in cat
               then Valueless(t.value.enumerators) else []
  {
  }

  /** Whether a type event is a type named k that `finish_type_callback`
      would record if k were wanted and still free. */
  predicate NamedAndBuilt(t: Option<TypeDesc>, k: string) {
    t.Some? && t.value.name == Some(k) && Build(t.value).Some?
  }

  /** The type events of one unit, handled in order. A new key holds what
      the first recordable event of that name builds (later ones are
      ignored), and every recordable event of a wanted name is recorded. */
  function CollectTypes(allow: AllowList, cat: Catalog, events: seq<Option<TypeDesc>>): (r: Step)
    ensures Keeps(cat, r.catalog)
    ensures forall k :: k in r.catalog && k !in cat
              ==> IsWanted(allow, k) && exists i :: 0 <= i < |events| && events[i].Some? && events[i].value.name == Some(k)
    ensures forall k :: k in r.catalog && k !in cat
              ==> exists j :: && 0 <= j < |events| && NamedAndBuilt(events[j], k)
                             && Build(events[j].value) == Some(r.catalog[k])
                             && forall j' :: 0 <= j' < j ==> !NamedAndBuilt(events[j'], k)
    ensures forall i :: 0 <= i < |events| && events[i].Some? && events[i].value.name.Some?
                        && IsWanted(allow, events[i].value.name.value) && Build(events[i].value).Some?
              ==> events[i].value.name.value in r.catalog
    ensures TypesUnderOwnName(cat) ==> TypesUnderOwnName(r.catalog)
    decreases |events|
  {
    if |events| == 0 then Step(cat, [])
    else
      var first := FinishType(allow, cat, events[0]);
      var rest := CollectTypes(allow, first.catalog, events[1..]);
      CollectTypesStep(allow, cat, events, first, rest.catalog);
      Step(rest.catalog, first.warnings + rest.warnings)
  }

  /** The inductive step of `CollectTypes`, on its own. */
  lemma CollectTypesStep(allow: AllowList, cat: Catalog, events: seq<Option<TypeDesc>>, first: Step, r: Catalog)
    requires |events| > 0
    requires first == FinishType(allow, cat, events[0])
    requires Keeps(first.catalog, r)
    requires forall k :: k in r && k !in first.catalog
               ==> IsWanted(allow, k) && exists i :: 0 <= i < |events[1..]| && events[1..][i].Some? && events[1..][i].value.name == Some(k)
    requires forall k :: k in r && k !in first.catalog
               ==> exists j :: && 0 <= j < |events[1..]| && NamedAndBuilt(events[1..][j], k)
                              && Build(events[1..][j].value) == Some(r[k])
                              && forall j' :: 0 <= j' < j ==> !NamedAndBuilt(events[1..][j'], k)
    requires forall i :: 0 <= i < |events[1..]| && events[1..][i].Some? && events[1..][i].value.name.Some?
                         && IsWanted(allow, events[1..][i].value.name.value) && Build(events[1..][i].value).Some?
               ==> events[1..][i].value.name.value in r
    ensures Keeps(cat, r)
    ensures forall k :: k in r && k !in cat
              ==> IsWanted(allow, k) && exists i :: 0 <= i < |events| && events[i].Some? && events[i].value.name == Some(k)
    ensures forall k :: k in r && k !in cat
              ==> exists j :: && 0 <= j < |events| && NamedAndBuilt(events[j], k)
                             && Build(events[j].value) == Some(r[k])
                             && forall j' :: 0 <= j' < j ==> !NamedAndBuilt(events[j'], k)
    ensures forall i :: 0 <= i < |events| && events[i].Some? && events[i].value.name.Some?
                        && IsWanted(allow, events[i].value.name.value) && Build(events[i].value).Some?
              ==> events[i].value.name.value in r
  {
    forall k | k in r && k !in cat
      ensures IsWanted(allow, k)
      ensures exists i :: 0 <= i < |events| && events[i].Some? && events[i].value.name == Some(k)
      ensures exists j :: && 0 <= j < |events| && NamedAndBuilt(events[j], k)
                          && Build(events[j].value) == Some(r[k])
                          && forall j' :: 0 <= j' < j ==> !NamedAndBuilt(events[j'], k)
    {
      if k in first.catalog {
        assert r[k] == first.catalog[k];
        assert NamedAndBuilt(events[0], k);
      } else {
        var j :| && 0 <= j < |events[1..]| && NamedAndBuilt(events[1..][j], k)
                 && Build(events[1..][j].value) == Some(r[k])
                 && forall j' :: 0 <= j' < j ==> !NamedAndBuilt(events[1..][j'], k);
        assert events[j + 1] == events[1..][j];
        assert !NamedAndBuilt(events[0], k);
        forall j' | 0 <= j' < j + 1
          ensures !NamedAndBuilt(events[j'], k)
        {
          if j' > 0 {
            assert events[j'] == events[1..][j' - 1];
          }
        }
      }
    }
    forall i | 0 <= i < |events| && events[i].Some? && events[i].value.name.Some?
               && IsWanted(allow, events[i].value.name.value) && Build(events[i].value).Some?
      ensures events[i].value.name.value in r
    {
      if i > 0 {
        assert events[1..][i - 1] == events[i];
      }
    }
  }

  /** Whether event i is where a new key is first recorded: a recordable
      type of a wanted name that is not in `cat`, with no recordable type of
      that name earlier in the stream. */
  predicate FirstRecordedAt(allow: AllowList, cat: Catalog, events: seq<Option<TypeDesc>>, i: nat)
    requires i < |events|
  {
    && events[i].Some? && events[i].value.name.Some?
    && var k := events[i].value.name.value;
       && NamedAndBuilt(events[i], k) && IsWanted(allow, k) && k !in cat
       && forall j :: 0 <= j < i ==> !NamedAndBuilt(events[j], k)
  }

  /** The "No value for field" warnings of the events from i on, read off the
      events alone: an enum that is where its name is first recorded warns
      once per valueless enumerator, in event order; no other event warns. */
  function EnumWarningsFrom(allow: AllowList, cat: Catalog, events: seq<Option<TypeDesc>>, i: nat): seq<Warning>
    requires i <= |events|
    decreases |events| - i
  {
    if i == |events| then []
    else
      var w := if FirstRecordedAt(allow, cat, events, i) && events[i].value.EnumeralType?
               then Valueless(events[i].value.enumerators) else [];
      w + EnumWarningsFrom(allow, cat, events, i + 1)
  }

  /** The warnings of a stream of type events are exactly those of the enums
      that are recorded, each where its name first appears. */
  lemma {:induction false} CollectTypesWarnings(allow: AllowList, cat: Catalog, events: seq<Option<TypeDesc>>)
    ensures CollectTypes(allow, cat, events).warnings == EnumWarningsFrom(allow, cat, events, 0)
    decreases |events|
  {
    if |events| > 0 {
      var first := FinishType(allow, cat, events[0]);
      CollectTypesUnfold(allow, cat, events);
      CollectTypesWarnings(allow, first.catalog, events[1..]);
      EnumWarningsStep(allow, cat, events, CollectTypes(allow, cat, events).warnings,
                       CollectTypes(allow, first.catalog, events[1..]).warnings);
    }
  }

  /** The inductive step of `CollectTypesWarnings`, on the warning lists
      alone: the first event's warnings followed by the reference for the
      rest of the stream make up the reference for the whole stream. */
  lemma EnumWarningsStep(allow: AllowList, cat: Catalog, events: seq<Option<TypeDesc>>, all: seq<Warning>, rest: seq<Warning>)
    requires |events| > 0
    requires var first := FinishType(allow, cat, events[0]);
             all == first.warnings + rest && rest == EnumWarningsFrom(allow, first.catalog, events[1..], 0)
    ensures all == EnumWarningsFrom(allow, cat, events, 0)
  {
    EnumWarningsShift(allow, cat, events, FinishType(allow, cat, events[0]).catalog, 0);
    FirstEventWarnings(allow, cat, events);
  }

  /** One step of `CollectTypes`, for the warnings. */
  lemma CollectTypesUnfold(allow: AllowList, cat: Catalog, events: seq<Option<TypeDesc>>)
    requires |events| > 0
    ensures var first := FinishType(allow, cat, events[0]);
            CollectTypes(allow, cat, events).warnings
            == first.warnings + CollectTypes(allow, first.catalog, events[1..]).warnings
  {
  }

  /** The first event warns as the reference says. */
  lemma FirstEventWarnings(allow: AllowList, cat: Catalog, events: seq<Option<TypeDesc>>)
    requires |events| > 0
    ensures EnumWarningsFrom(allow, cat, events, 0)
            == FinishType(allow, cat, events[0]).warnings + EnumWarningsFrom(allow, cat, events, 1)
  {
    FinishTypeWarnings(allow, cat, events[0]);
  }

  /** Recording the first event shifts the reference by one event. */
  lemma {:induction false} EnumWarningsShift(allow: AllowList, cat: Catalog, events: seq<Option<TypeDesc>>, c1: Catalog, i: nat)
    requires |events| > 0 && i < |events|
    requires c1 == FinishType(allow, cat, events[0]).catalog
    ensures EnumWarningsFrom(allow, cat, events, i + 1) == EnumWarningsFrom(allow, c1, events[1..], i)
    decreases |events| - i
  {
    if i + 1 < |events| {
      FirstRecordedShift(allow, cat, events, c1, i);
      assert events[1..][i] == events[i + 1];
      EnumWarningsShift(allow, cat, events, c1, i + 1);
    }
  }

  /** Event i + 1 is where a key is first recorded from `cat` exactly when it
      is so in the rest of the stream, from the catalog after the first
      event. */
  lemma FirstRecordedShift(allow: AllowList, cat: Catalog, events: seq<Option<TypeDesc>>, c1: Catalog, i: nat)
    requires i + 1 < |events|
    requires c1 == FinishType(allow, cat, events[0]).catalog
    ensures FirstRecordedAt(allow, cat, events, i + 1) == FirstRecordedAt(allow, c1, events[1..], i)
  {
    assert events[1..][i] == events[i + 1];
    if events[i + 1].Some? && events[i + 1].value.name.Some? {
      var k := events[i + 1].value.name.value;
      if IsWanted(allow, k) {
        assert k !in c1 <==> k !in cat && !NamedAndBuilt(events[0], k);
        assert (forall j :: 0 <= j < i + 1 ==> !NamedAndBuilt(events[j], k))
               <==> !NamedAndBuilt(events[0], k) && forall j :: 0 <= j < i ==> !NamedAndBuilt(events[1..][j], k) by {
          forall j | 0 <= j < i
            ensures events[1..][j] == events[j + 1]
          {
          }
        }
      }
    }
  }

  /** The callback given to `cpp_forall_identifiers`, for one identifier:
      one that names a macro, is wanted and is not yet in the catalog is
      recorded under the identifier, with its definition split into name and
      value. */
  function RecordMacro(allow: AllowList, cat: Catalog, id: Identifier): (r: Catalog)
    ensures Keeps(cat, r)
    ensures forall k :: k in r && k !in cat
              ==> k == id.name && IsWanted(allow, k) && id.definition.Some?
                  && r[k] == FromDefinition(id.definition.value)
    ensures id.definition.Some? && IsWanted(allow, id.name) ==> id.name in r
  {
    if id.definition.Some? && IsWanted(allow, id.name) && id.name !in cat
    then cat[id.name := FromDefinition(id.definition.value)]
    else cat
  }

  /** The scan of the whole identifier table. */
  function ScanMacros(allow: AllowList, cat: Catalog, ids: seq<Identifier>): (r: Catalog)
    ensures Keeps(cat, r)
    ensures forall k :: k in r && k !in cat
              ==> IsWanted(allow, k)
                  && exists i :: 0 <= i < |ids| && ids[i].name == k && ids[i].definition.Some?
                                 && r[k] == FromDefinition(ids[i].definition.value)
    ensures forall i :: 0 <= i < |ids| && ids[i].definition.Some? && IsWanted(allow, ids[i].name)
              ==> ids[i].name in r
    decreases |ids|
  {
    if |ids| == 0 then cat
    else
      var next := RecordMacro(allow, cat, ids[0]);
      var r := ScanMacros(allow, next, ids[1..]);
      ScanMacrosStep(allow, cat, ids, next, r);
      r
  }

  /** The inductive step of `ScanMacros`, on its own. */
  lemma ScanMacrosStep(allow: AllowList, cat: Catalog, ids: seq<Identifier>, next: Catalog, r: Catalog)
    requires |ids| > 0
    requires next == RecordMacro(allow, cat, ids[0])
    requires Keeps(next, r)
    requires forall k :: k in r && k !in next
               ==> IsWanted(allow, k)
                   && exists i :: 0 <= i < |ids[1..]| && ids[1..][i].name == k && ids[1..][i].definition.Some?
                                  && r[k] == FromDefinition(ids[1..][i].definition.value)
    requires forall i :: 0 <= i < |ids[1..]| && ids[1..][i].definition.Some? && IsWanted(allow, ids[1..][i].name)
               ==> ids[1..][i].name in r
    ensures Keeps(cat, r)
    ensures forall k :: k in r && k !in cat
              ==> IsWanted(allow, k)
                  && exists i :: 0 <= i < |ids| && ids[i].name == k && ids[i].definition.Some?
                                 && r[k] == FromDefinition(ids[i].definition.value)
    ensures forall i :: 0 <= i < |ids| && ids[i].definition.Some? && IsWanted(allow, ids[i].name)
              ==> ids[i].name in r
  {
    forall k | k in r && k !in cat
      ensures IsWanted(allow, k)
      ensures exists i :: 0 <= i < |ids| && ids[i].name == k && ids[i].definition.Some?
                          && r[k] == FromDefinition(ids[i].definition.value)
    {
      if k in next {
        assert r[k] == next[k];
        assert ids[0].name == k;
      } else {
        var i :| 0 <= i < |ids[1..]| && ids[1..][i].name == k && ids[1..][i].definition.Some?
                 && r[k] == FromDefinition(ids[1..][i].definition.value);
        assert ids[i + 1] == ids[1..][i];
      }
    }
    forall i | 0 <= i < |ids| && ids[i].definition.Some? && IsWanted(allow, ids[i].name)
      ensures ids[i].name in r
    {
      if i > 0 {
        assert ids[1..][i - 1] == ids[i];
      }
    }
  }

  /** A wanted macro whose definition holds no space is still recorded, under
      its identifier, with an empty name and value. */
  lemma SpacelessDefinitionStillRecorded(allow: AllowList, cat: Catalog, id: string, def: string)
    requires ' ' !in def
    requires IsWanted(allow, id) && id !in cat
    ensures ScanMacros(allow, cat, [Identifier(id, Some(def))]) == cat[id := MacroEntry("", "")]
  {
  }

}

=== FILE: driver.dfy ===
/** `finish_unit_callback` and the run of one translation unit: types are
    collected as they are finished, macros are scanned once at the end, every
    exact-listed name that was never found is reported, and the catalog is
    written out in ascending name order. */
module Driver {
  import opened Optional
  import opened Strings
  import opened AllowList
  import opened Abi
  import opened Collector
  import opened Render
  import opened Extract
  import opened MacroDef

  /** The exact-listed names, in the order given, that the catalog lacks. */
  function MissingFrom(names: seq<string>, cat: Catalog): (r: seq<string>)
    ensures forall n :: n in r <==> n in names && n !in cat
    ensures StrictlyAscending(names) ==> StrictlyAscending(r)
  {
    if |names| == 0 then []
    else
      var rest := MissingFrom(names[1..], cat);
      assert forall n :: n in names <==> n == names[0] || n in names[1..];
      assert StrictlyAscending(names) ==> forall n :: n in rest ==> Less(names[0], n) by {
        if StrictlyAscending(names) {
          forall n | n in rest
            ensures Less(names[0], n)
          {
            var j :| 0 <= j < |names[1..]| && names[1..][j] == n;
            assert names[j + 1] == n;
          }
        }
      }
      assert StrictlyAscending(names) ==> StrictlyAscending(names[1..]) by {
        if StrictlyAscending(names) {
          forall a, b | 0 <= a < b < |names[1..]|
            ensures Less(names[1..][a], names[1..][b])
          {
            assert names[1..][a] == names[a + 1] && names[1..][b] == names[b + 1];
          }
        }
      }
      if names[0] !in cat then
        assert StrictlyAscending(names) ==> forall k :: 0 <= k < |rest| ==> Less(names[0], rest[k]) by {
          if StrictlyAscending(names) {
            forall k | 0 <= k < |rest|
              ensures Less(names[0], rest[k])
            {
              assert rest[k] in rest;
            }
          }
        }
        [names[0]] + rest
      else rest
  }

  /** One "Missing wanted symbol" warning per name, in order. */
  function MissingWarnings(names: seq<string>): (r: seq<Warning>)
    ensures |r| == |names|
    ensures forall i :: 0 <= i < |names| ==> r[i] == MissingSymbol(names[i])
  {
    if |names| == 0 then [] else [MissingSymbol(names[0])] + MissingWarnings(names[1..])
  }

  /** The end of the unit, after the macro scan: `missing` are the names
      warned about as missing, `order` the order the catalog is written in,
      and `out` what is written. Each exact-listed name absent from the
      catalog is reported exactly once, and no other name is, before anything
      is written; every catalog entry is written exactly once, in strictly
      ascending key order. */
  method Finalize(cfg: Config, cat: Catalog) returns (missing: seq<string>, order: seq<string>, out: Output)
    ensures StrictlyAscending(missing)
    ensures forall n :: n in missing <==> n in cfg.allow.exact && n !in cat
    ensures forall i, j :: 0 <= i < |missing| && 0 <= j < |missing| && missing[i] == missing[j] ==> i == j
    ensures StrictlyAscending(order)
    ensures forall k :: k in order <==> k in cat
    ensures out.lines == RenderAll(cfg, cat, order).lines
    ensures |out.warnings| == |missing| + |RenderAll(cfg, cat, order).warnings|
    ensures forall i :: 0 <= i < |missing| ==> out.warnings[i] == MissingSymbol(missing[i])
    ensures out.warnings[|missing|..] == RenderAll(cfg, cat, order).warnings
  {
    var wanted := SortSet(cfg.allow.exact);
    missing := MissingFrom(wanted, cat);
    forall i, j | 0 <= i < |missing| && 0 <= j < |missing| && missing[i] == missing[j]
      ensures i == j
    {
      AscendingHasNoDuplicates(missing, i, j);
    }
    order := SortSet(cat.Keys);
    var written := RenderAll(cfg, cat, order);
    var announced := MissingWarnings(missing);
    out := Output(written.lines, announced + written.warnings);
    assert out.warnings[|missing|..] == written.warnings;
  }

  /** The catalog at the end of a unit: the types collected from `events`,
      then the macros found in `ids`. */
  function UnitCatalog(allow: AllowList, events: seq<Option<TypeDesc>>, ids: seq<Identifier>): Catalog {
    ScanMacros(allow, CollectTypes(allow, map[], events).catalog, ids)
  }

  /** A wanted macro whose definition holds no space is written as a
      `#define` with an empty name and an empty body. */
  lemma SpacelessMacroLine(cfg: Config, cat: Catalog, id: string, def: string)
    requires ' ' !in def
    requires IsWanted(cfg.allow, id) && id !in cat
    ensures EntryLines(cfg, ScanMacros(cfg.allow, cat, [Identifier(id, Some(def))]), id) == [Define("", "")]
  {
    SpacelessDefinitionStillRecorded(cfg.allow, cat, id, def);
  }

  /** `Macro::print` redefines a macro with the definition it was read from,
      so that the compiler accepts the redefinition only while the definition
      is unchanged: the one line written for a wanted macro whose definition
      holds a space is a `#define` of a space-free name and a value that does
      not start with a space, and that name, one or more spaces and that
      value rebuild the definition. */
  lemma MacroWritesDefine(cfg: Config, cat: Catalog, id: string, def: string)
    requires ' ' in def
    requires IsWanted(cfg.allow, id) && id !in cat
    ensures var ls := EntryLines(cfg, ScanMacros(cfg.allow, cat, [Identifier(id, Some(def))]), id);
            && |ls| == 1 && ls[0].Define?
            && ' ' !in ls[0].macro
            && (ls[0].body == [] || ls[0].body[0] != ' ')
            && exists k: nat :: k >= 1 && def == ls[0].macro + Spaces(k) + ls[0].body
  {
    var e := FromDefinition(def);
    MacroLine(cfg, cat, id, def);
    var k := |def| - |e.name| - |e.value|;
    assert k >= 1 && def == e.name + Spaces(k) + e.value;
  }

  /** The line written for a wanted macro scanned into a catalog that does
      not yet hold its identifier. */
  lemma MacroLine(cfg: Config, cat: Catalog, id: string, def: string)
    requires IsWanted(cfg.allow, id) && id !in cat
    ensures EntryLines(cfg, ScanMacros(cfg.allow, cat, [Identifier(id, Some(def))]), id)
            == [Define(FromDefinition(def).name, FromDefinition(def).value)]
  {
    var r := ScanMacros(cfg.allow, cat, [Identifier(id, Some(def))]);
    assert RecordMacro(cfg.allow, cat, Identifier(id, Some(def))) == cat[id := FromDefinition(def)];
    assert r == cat[id := FromDefinition(def)];
  }

  /** The other direction: a definition made of a space-free name, one or
      more spaces and a value not starting with a space is written back as
      the `#define` of exactly that name and value. */
  lemma DefinitionWrittenBack(cfg: Config, cat: Catalog, id: string, name: string, k: nat, value: string)
    requires ' ' !in name && k >= 1 && (value == [] || value[0] != ' ')
    requires IsWanted(cfg.allow, id) && id !in cat
    ensures EntryLines(cfg, ScanMacros(cfg.allow, cat, [Identifier(id, Some(name + Spaces(k) + value))]), id)
            == [Define(name, value)]
  {
    JoinThenSplit(name, k, value);
    MacroLine(cfg, cat, id, name + Spaces(k) + value);
  }

  /** What the catalog at the end of a unit holds: only wanted names, each
      from a type event or a macro identifier, and every wanted recordable
      type and every wanted macro. */
  lemma UnitCatalogKeys(allow: AllowList, events: seq<Option<TypeDesc>>, ids: seq<Identifier>)
    ensures forall k :: k in UnitCatalog(allow, events, ids) ==> IsWanted(allow, k)
    ensures forall k :: k in UnitCatalog(allow, events, ids)
              ==> (exists i :: 0 <= i < |events| && events[i].Some? && events[i].value.name == Some(k))
                  || (exists i :: 0 <= i < |ids| && ids[i].name == k && ids[i].definition.Some?)
    ensures forall i :: 0 <= i < |events| && events[i].Some? && events[i].value.name.Some?
                        && IsWanted(allow, events[i].value.name.value) && Build(events[i].value).Some?
              ==> events[i].value.name.value in UnitCatalog(allow, events, ids)
    ensures forall i :: 0 <= i < |ids| && ids[i].definition.Some? && IsWanted(allow, ids[i].name)
              ==> ids[i].name in UnitCatalog(allow, events, ids)
  {
    var empty: Catalog := map[];
    var types := CollectTypes(allow, empty, events).catalog;
    var cat := ScanMacros(allow, types, ids);
    assert cat == UnitCatalog(allow, events, ids);
    forall k | k in cat
      ensures IsWanted(allow, k)
      ensures (exists i :: 0 <= i < |events| && events[i].Some? && events[i].value.name == Some(k))
              || (exists i :: 0 <= i < |ids| && ids[i].name == k && ids[i].definition.Some?)
    {
      if k in types {
        assert k !in empty;
        assert IsWanted(allow, k) && exists i :: 0 <= i < |events| && events[i].Some? && events[i].value.name == Some(k);
      } else {
        assert IsWanted(allow, k) && exists i :: 0 <= i < |ids| && ids[i].name == k && ids[i].definition.Some?;
      }
    }
  }

  /** The catalog facts, read through an enumeration of its keys. */
  lemma UnitOrderKeys(allow: AllowList, events: seq<Option<TypeDesc>>, ids: seq<Identifier>, order: seq<string>)
    requires forall k :: k in order <==> k in UnitCatalog(allow, events, ids)
    ensures forall k :: k in order ==> IsWanted(allow, k)
    ensures forall k :: k in order
              ==> (exists i :: 0 <= i < |events| && events[i].Some? && events[i].value.name == Some(k))
                  || (exists i :: 0 <= i < |ids| && ids[i].name == k && ids[i].definition.Some?)
    ensures forall i :: 0 <= i < |events| && events[i].Some? && events[i].value.name.Some?
                        && IsWanted(allow, events[i].value.name.value) && Build(events[i].value).Some?
              ==> events[i].value.name.value in order
    ensures forall i :: 0 <= i < |ids| && ids[i].definition.Some? && IsWanted(allow, ids[i].name)
              ==> ids[i].name in order
  {
    UnitCatalogKeys(allow, events, ids);
  }

  /** One translation unit: the type events in compilation order, then the
      identifier table. Returns the catalog and warnings after the type
      events, the catalog after the macro scan, the missing names, the output
      order and the output. */
  method Run(cfg: Config, events: seq<Option<TypeDesc>>, ids: seq<Identifier>)
    returns (collected: Step, cat: Catalog, missing: seq<string>, order: seq<string>, out: Output)
    ensures collected == CollectTypes(cfg.allow, map[], events)
    ensures cat == ScanMacros(cfg.allow, collected.catalog, ids)
    ensures forall k :: k in order <==> k in cat
    ensures out.lines == RenderAll(cfg, cat, order).lines
    ensures forall i :: 0 <= i < |missing| ==> |missing| <= |out.warnings| && out.warnings[i] == MissingSymbol(missing[i])
    ensures |missing| <= |out.warnings| && out.warnings[|missing|..] == RenderAll(cfg, cat, order).warnings
    ensures forall k :: k in order ==> IsWanted(cfg.allow, k)
    ensures forall k :: k in order
              ==> (exists i :: 0 <= i < |events| && events[i].Some? && events[i].value.name == Some(k))
                  || (exists i :: 0 <= i < |ids| && ids[i].name == k && ids[i].definition.Some?)
    ensures forall i :: 0 <= i < |events| && events[i].Some? && events[i].value.name.Some?
                        && IsWanted(cfg.allow, events[i].value.name.value) && Build(events[i].value).Some?
              ==> events[i].value.name.value in order
    ensures forall i :: 0 <= i < |ids| && ids[i].definition.Some? && IsWanted(cfg.allow, ids[i].name)
              ==> ids[i].name in order
    ensures StrictlyAscending(order) && StrictlyAscending(missing)
    ensures forall n :: n in missing ==> n in cfg.allow.exact && n !in order
    ensures forall n :: n in cfg.allow.exact && n !in order ==> n in missing
  {
    collected := CollectTypes(cfg.allow, map[], events);
    cat := ScanMacros(cfg.allow, collected.catalog, ids);
    assert cat == UnitCatalog(cfg.allow, events, ids);
    missing, order, out := Finalize(cfg, cat);
    UnitOrderKeys(cfg.allow, events, ids, order);
  }

  /** Determinism: the written output depends only on the catalog, since
      there is one ascending enumeration of its keys. */
  lemma OutputDeterminedByCatalog(cfg: Config, cat: Catalog, order1: seq<string>, order2: seq<string>)
    requires StrictlyAscending(order1) && StrictlyAscending(order2)
    requires forall k :: k in order1 <==> k in cat
    requires forall k :: k in order2 <==> k in cat
    ensures RenderAll(cfg, cat, order1) == RenderAll(cfg, cat, order2)
  {
    AscendingUnique(order1, order2);
  }

}

=== FILE: extract.dfy ===
/** The `Struct(tree)` and `Enum(tree)` constructors: what the checker keeps of
    a finished record or enumeral type. */
module Extract {
  import opened Optional
  import opened Abi

  /** The field a named field descriptor becomes. */
  function FieldOf(d: FieldDesc): Field
    requires d.name.Some?
  {
    Field(d.name.value, d.size, d.offset)
  }

  /** The field loop of `Struct(tree)`: fields without a name are skipped, the
      others are kept with their size and offset, in declaration order. */
  function NamedFields(fs: seq<FieldDesc>): (r: seq<Field>)
    ensures |r| <= |fs|
    ensures forall i :: 0 <= i < |fs| && fs[i].name.Some? ==> FieldOf(fs[i]) in r
    ensures (forall i :: 0 <= i < |fs| ==> fs[i].name.Some?)
            ==> |r| == |fs| && forall i :: 0 <= i < |fs| ==> r[i] == FieldOf(fs[i])
    ensures (forall i :: 0 <= i < |fs| ==> fs[i].name.None?) ==> r == []
  {
    if |fs| == 0 then []
    else
      var rest := NamedFields(fs[1..]);
      assert forall i :: 1 <= i < |fs| && fs[i].name.Some? ==> FieldOf(fs[i]) in rest by {
        forall i | 1 <= i < |fs| && fs[i].name.Some?
          ensures FieldOf(fs[i]) in rest
        {
          assert fs[1..][i - 1] == fs[i];
        }
      }
      if fs[0].name.Some? then [FieldOf(fs[0])] + rest else rest
  }

  /** Nothing is invented: every kept field is the image of a named field
      descriptor. */
  lemma {:induction false} NamedFieldsOrigin(fs: seq<FieldDesc>)
    ensures forall f :: f in NamedFields(fs) ==> exists i :: 0 <= i < |fs| && fs[i].name.Some? && FieldOf(fs[i]) == f
    decreases |fs|
  {
    if |fs| > 0 {
      var rest := NamedFields(fs[1..]);
      NamedFieldsOrigin(fs[1..]);
      forall f | f in NamedFields(fs)
        ensures exists i :: 0 <= i < |fs| && fs[i].name.Some? && FieldOf(fs[i]) == f
      {
        if fs[0].name.Some? && f == FieldOf(fs[0]) {
          assert fs[0].name.Some? && FieldOf(fs[0]) == f;
        } else {
          assert f in rest;
          var i :| 0 <= i < |fs[1..]| && fs[1..][i].name.Some? && FieldOf(fs[1..][i]) == f;
          assert fs[i + 1] == fs[1..][i];
        }
      }
    }
  }

  /** Skipping unnamed fields commutes with concatenation, so named fields keep
      their declaration order. */
  lemma {:induction false} NamedFieldsAppend(a: seq<FieldDesc>, b: seq<FieldDesc>)
    ensures NamedFields(a + b) == NamedFields(a) + NamedFields(b)
    decreases |a|
  {
    if |a| > 0 {
      assert (a + b)[1..] == a[1..] + b;
      NamedFieldsAppend(a[1..], b);
    } else {
      assert a + b == b;
    }
  }

  /** The enumerator loop of `Enum(tree)`: enumerators without a value are
      skipped, the others are kept with their value, in declaration order. */
  function Valued(es: seq<EnumeratorDesc>): (r: seq<Enumerator>)
    ensures |r| <= |es|
    ensures forall i :: 0 <= i < |es| && es[i].value.Some? ==> Enumerator(es[i].name, es[i].value.value) in r
  {
    if |es| == 0 then []
    else
      var rest := Valued(es[1..]);
      assert forall i :: 1 <= i < |es| && es[i].value.Some? ==> Enumerator(es[i].name, es[i].value.value) in rest by {
        forall i | 1 <= i < |es| && es[i].value.Some?
          ensures Enumerator(es[i].name, es[i].value.value) in rest
        {
          assert es[1..][i - 1] == es[i];
        }
      }
      match es[0].value
      case Some(v) => [Enumerator(es[0].name, v)] + rest
      case None => rest
  }

  /** Nothing is invented: every kept enumerator carries the name and value of
      an enumerator descriptor that has a value. */
  lemma {:induction false} ValuedOrigin(es: seq<EnumeratorDesc>)
    ensures forall j :: 0 <= j < |Valued(es)| ==> exists i :: 0 <= i < |es| && es[i].value == Some(Valued(es)[j].value) && es[i].name == Valued(es)[j].name
    decreases |es|
  {
    if |es| > 0 {
      var r, rest := Valued(es), Valued(es[1..]);
      ValuedOrigin(es[1..]);
      forall j | 0 <= j < |r|
        ensures exists i :: 0 <= i < |es| && es[i].value == Some(r[j].value) && es[i].name == r[j].name
      {
        if es[0].value.Some? && j == 0 {
          assert es[0].value == Some(r[0].value) && es[0].name == r[0].name;
        } else {
          var k := if es[0].value.Some? then j - 1 else j;
          assert r[j] == rest[k];
          var i :| 0 <= i < |es[1..]| && es[1..][i].value == Some(rest[k].value) && es[1..][i].name == rest[k].name;
          assert es[i + 1] == es[1..][i];
        }
      }
    } else {
      assert |Valued(es)| == 0;
    }
  }

  /** The "No value for field" warnings of `Enum(tree)`: one per enumerator
      without a value. */
  function Valueless(es: seq<EnumeratorDesc>): (r: seq<Warning>)
    ensures forall w :: w in r ==> w == NoValueForField
    ensures |r| + |Valued(es)| == |es|
  {
    if |es| == 0 then []
    else if es[0].value.None? then [NoValueForField] + Valueless(es[1..])
    else Valueless(es[1..])
  }

  /** Skipping valueless enumerators commutes with concatenation, so members
      keep their declaration order. */
  lemma {:induction false} ValuedAppend(a: seq<EnumeratorDesc>, b: seq<EnumeratorDesc>)
    ensures Valued(a + b) == Valued(a) + Valued(b)
    decreases |a|
  {
    if |a| > 0 {
      assert (a + b)[1..] == a[1..] + b;
      ValuedAppend(a[1..], b);
    } else {
      assert a + b == b;
    }
  }

  /** The record a finished type becomes: a named record of known size, or a
      named enumeral type; nothing for anything else. A record whose size is
      unknown is dropped whole. */
  function Build(t: TypeDesc): (r: Option<Entry>)
    ensures r.Some? ==> t.name == Some(r.value.name)
    ensures r.Some? <==> t.name.Some? && (t.EnumeralType? || (t.RecordType? && t.size.Known?))
    ensures r.Some? && t.RecordType? ==> r.value == StructEntry(t.name.value, t.size.bytes, NamedFields(t.fields))
    ensures r.Some? && t.EnumeralType? ==> r.value == EnumEntry(t.name.value, Valued(t.enumerators))
  {
    match t
    case RecordType(Some(n), Known(size), fs) => Some(StructEntry(n, size, NamedFields(fs)))
    case EnumeralType(Some(n), es) => Some(EnumEntry(n, Valued(es)))
    case _ => None
  }

}

=== FILE: macro_def.dfy ===
/** The `Macro` constructor: splitting the text of a macro definition into the
    name written before the first space and the value after it. */
module MacroDef {
  import opened Optional
  import opened Abi

  /** n spaces. */
  function Spaces(n: nat): (r: string)
    ensures |r| == n
    ensures forall i :: 0 <= i < n ==> r[i] == ' '
  {
    seq(n, _ => ' ')
  }

  /** The index of the first space, as `strchr(s, ' ')` finds it. */
  function FirstSpace(s: string): (r: Option<nat>)
    ensures r.Some? ==> r.value < |s| && s[r.value] == ' ' && ' ' !in s[..r.value]
    ensures r.None? ==> ' ' !in s
  {
    if |s| == 0 then None
    else if s[0] == ' ' then Some(0)
    else
      match FirstSpace(s[1..])
      case None =>
        assert s == [s[0]] + s[1..];
        None
      case Some(i) =>
        assert s[..i + 1] == [s[0]] + s[1..][..i];
        Some(i + 1)
  }

  /** What is left after the loop `while (*val == ' ') val++;`. */
  function SkipSpaces(s: string): (r: string)
    ensures |r| <= |s| && r == s[|s| - |r|..]
    ensures forall i :: 0 <= i < |s| - |r| ==> s[i] == ' '
    ensures r == [] || r[0] != ' '
  {
    if |s| > 0 && s[0] == ' ' then SkipSpaces(s[1..]) else s
  }

  /** `Macro(const char *def)`: with a space in the definition, the name is the
      text before the first space and the value the rest with its leading
      spaces removed; without one, both stay empty. */
  function FromDefinition(def: string): (e: Entry)
    ensures e.MacroEntry?
    ensures ' ' !in def ==> e.name == "" && e.value == ""
    ensures ' ' in def ==> ' ' !in e.name
    ensures ' ' in def ==> e.value == [] || e.value[0] != ' '
    ensures ' ' in def ==>
              && |e.name| + |e.value| < |def|
              && def == e.name + Spaces(|def| - |e.name| - |e.value|) + e.value
  {
    match FirstSpace(def)
    case None => MacroEntry("", "")
    case Some(i) =>
      var value := SkipSpaces(def[i..]);
      assert def == def[..i] + Spaces(|def| - i - |value|) + value;
      MacroEntry(def[..i], value)
  }

  /** Splitting undoes joining: a space-free name, one or more spaces and a
      value that does not begin with a space come apart into that name and
      that value. */
  lemma JoinThenSplit(name: string, k: nat, value: string)
    requires ' ' !in name
    requires k >= 1
    requires value == [] || value[0] != ' '
    ensures FromDefinition(name + Spaces(k) + value) == MacroEntry(name, value)
  {
    var def := name + Spaces(k) + value;
    assert def[|name|] == ' ';
    var i := FirstSpace(def).value;
    if i < |name| {
      assert false;
    } else if i > |name| {
      assert false;
    }
    assert i == |name|;
    assert def[..i] == name;
    var tail := def[i..];
    assert tail == Spaces(k) + value;
    var v := SkipSpaces(tail);
    assert value != [] ==> tail[k] == value[0];
    if |v| > |value| {
      assert false;
    } else if |v| < |value| {
      assert false;
    }
    assert v == value;
  }

}

=== FILE: optional.dfy ===
/** A value that may be absent: a null tree, a field without a name, a size
    the front-end could not compute, a character search that found nothing. */
module Optional {

  datatype Option<+T> = None | Some(value: T)

}

=== FILE: render.dfy ===
/** The `print` methods of `Struct`, `Enum` and `Macro`: each catalog entry
    becomes assertion lines, in the exact or the growable form its policy
    selects, and some warnings. */
module Render {
  import opened Abi

  /** A recorded field gets the flexible-tail form when its size is unknown
      and its name is that of the struct's last field. */
  predicate IsFlexibleTail(f: Field, last: string) {
    f.size.Unknown? && f.name == last
  }

  /** The line one field yields. */
  function FieldLine(typeName: string, f: Field, last: string): Line {
    if IsFlexibleTail(f, last) then FieldFlexible(typeName, f.name, f.offset)
    else FieldCheck(typeName, f.name, f.offset, SizeArg(f.size))
  }

  /** The lines of the field loop of `Struct::print`; `last` is the name of
      the last field. */
  function FieldLines(typeName: string, fields: seq<Field>, last: string): (r: seq<Line>)
    ensures |r| == |fields|
    ensures forall i {:trigger r[i]} :: 0 <= i < |fields| ==> r[i] == FieldLine(typeName, fields[i], last)
  {
    if |fields| == 0 then []
    else [FieldLine(typeName, fields[0], last)] + FieldLines(typeName, fields[1..], last)
  }

  /** The warnings of the same loop: a field of unknown size that is not the
      flexible tail is reported, naming the struct. */
  function FieldWarnings(typeName: string, fields: seq<Field>, last: string): (r: seq<Warning>)
    ensures |r| <= |fields|
    ensures forall j :: 0 <= j < |r| ==> r[j].FieldSizeUnknown? && r[j].typeName == typeName
  {
    if |fields| == 0 then []
    else
      var f := fields[0];
      (if f.size.Unknown? && f.name != last then [FieldSizeUnknown(typeName, f.name)] else [])
        + FieldWarnings(typeName, fields[1..], last)
  }

  /** A field is reported exactly when its size is unknown and it is not
      named like the last field. */
  lemma {:induction false} FieldWarningsContents(typeName: string, fields: seq<Field>, last: string)
    ensures forall w :: w in FieldWarnings(typeName, fields, last)
              ==> exists i :: 0 <= i < |fields| && fields[i].size.Unknown? && fields[i].name != last
                              && w == FieldSizeUnknown(typeName, fields[i].name)
    ensures forall i :: 0 <= i < |fields| && fields[i].size.Unknown? && fields[i].name != last
              ==> FieldSizeUnknown(typeName, fields[i].name) in FieldWarnings(typeName, fields, last)
    decreases |fields|
  {
    if |fields| > 0 {
      FieldWarningsContents(typeName, fields[1..], last);
      FieldWarningsStep(typeName, fields, last, FieldWarnings(typeName, fields[1..], last));
    }
  }

  /** The inductive step of `FieldWarnings`, on its own. */
  lemma FieldWarningsStep(typeName: string, fields: seq<Field>, last: string, rest: seq<Warning>)
    requires |fields| > 0
    requires forall w :: w in rest
               ==> exists i :: 0 <= i < |fields[1..]| && fields[1..][i].size.Unknown? && fields[1..][i].name != last
                               && w == FieldSizeUnknown(typeName, fields[1..][i].name)
    requires forall i :: 0 <= i < |fields[1..]| && fields[1..][i].size.Unknown? && fields[1..][i].name != last
               ==> FieldSizeUnknown(typeName, fields[1..][i].name) in rest
    ensures forall w :: w in rest
              ==> exists i :: 0 <= i < |fields| && fields[i].size.Unknown? && fields[i].name != last
                              && w == FieldSizeUnknown(typeName, fields[i].name)
    ensures forall i :: 1 <= i < |fields| && fields[i].size.Unknown? && fields[i].name != last
              ==> FieldSizeUnknown(typeName, fields[i].name) in rest
  {
    forall w | w in rest
      ensures exists i :: 0 <= i < |fields| && fields[i].size.Unknown? && fields[i].name != last
                          && w == FieldSizeUnknown(typeName, fields[i].name)
    {
      var i :| 0 <= i < |fields[1..]| && fields[1..][i].size.Unknown? && fields[1..][i].name != last
               && w == FieldSizeUnknown(typeName, fields[1..][i].name);
      assert fields[i + 1] == fields[1..][i];
    }
    forall i | 1 <= i < |fields| && fields[i].size.Unknown? && fields[i].name != last
      ensures FieldSizeUnknown(typeName, fields[i].name) in rest
    {
      assert fields[1..][i - 1] == fields[i];
    }
  }

  /** The warnings of the field loop are built field by field, in field
      order: a run of fields warns what its two parts warn, one after the
      other, and a single field warns once exactly when its size is unknown
      and it is not named like the last field. */
  lemma {:induction false} FieldWarningsAppend(typeName: string, a: seq<Field>, b: seq<Field>, last: string)
    ensures FieldWarnings(typeName, a + b, last) == FieldWarnings(typeName, a, last) + FieldWarnings(typeName, b, last)
    ensures forall f :: FieldWarnings(typeName, [f], last)
              == if f.size.Unknown? && f.name != last then [FieldSizeUnknown(typeName, f.name)] else []
    decreases |a|
  {
    if |a| == 0 {
      assert a + b == b;
    } else {
      assert (a + b)[0] == a[0] && (a + b)[1..] == a[1..] + b;
      FieldWarningsAppend(typeName, a[1..], b, last);
      var h := FieldWarnings(typeName, [a[0]], last);
      assert [a[0]][1..] == [];
      WarningsAssociative(h, FieldWarnings(typeName, a[1..], last), FieldWarnings(typeName, b, last));
    }
    forall f
      ensures FieldWarnings(typeName, [f], last)
              == if f.size.Unknown? && f.name != last then [FieldSizeUnknown(typeName, f.name)] else []
    {
      assert [f][1..] == [];
    }
  }

  lemma WarningsAssociative(x: seq<Warning>, y: seq<Warning>, z: seq<Warning>)
    ensures x + (y + z) == (x + y) + z
  {
  }

  /** The name of the last field, as `fields.back().name`; only read when
      there is a field. */
  function LastFieldName(fields: seq<Field>): string {
    if |fields| == 0 then "" else fields[|fields| - 1].name
  }

  /** `Struct::print`: the size assertion, then one line per field. */
  function RenderStruct(flexible: set<string>, name: string, size: nat, fields: seq<Field>): (r: Output)
    ensures |r.lines| == |fields| + 1 && IsSizeLine(r.lines[0])
    ensures forall i :: 1 <= i < |r.lines| ==> !IsSizeLine(r.lines[i])
    ensures |r.warnings| <= |fields|
  {
    var last := LastFieldName(fields);
    var sizeLine := if name in flexible then SizeGe(name, size) else SizeEq(name, size);
    Output([sizeLine] + FieldLines(name, fields, last), FieldWarnings(name, fields, last))
  }

  /** The name of the last member, as `values.back().first`. */
  function LastMemberName(values: seq<Enumerator>): string {
    if |values| == 0 then "" else values[|values| - 1].name
  }

  /** The line one enum member yields. */
  function MemberLine(typeName: string, m: Enumerator, growable: bool, last: string): Line {
    if growable && m.name == last then EnumValGe(typeName, m.name, m.value)
    else EnumValEq(typeName, m.name, m.value)
  }

  /** The member loop of `Enum::print`. */
  function MemberLines(typeName: string, values: seq<Enumerator>, growable: bool, last: string): (r: seq<Line>)
    ensures |r| == |values|
    ensures forall i {:trigger r[i]} :: 0 <= i < |values| ==> r[i] == MemberLine(typeName, values[i], growable, last)
  {
    if |values| == 0 then []
    else [MemberLine(typeName, values[0], growable, last)] + MemberLines(typeName, values[1..], growable, last)
  }

  /** `Enum::print`. */
  function RenderEnum(extendible: set<string>, name: string, values: seq<Enumerator>): (r: seq<Line>)
    ensures |r| == |values|
    ensures forall i :: 0 <= i < |r| ==> (r[i].EnumValEq? || r[i].EnumValGe?)
                                          && r[i].member == values[i].name && r[i].value == values[i].value
    ensures name !in extendible ==> forall i :: 0 <= i < |r| ==> r[i].EnumValEq?
  {
    MemberLines(name, values, name in extendible, LastMemberName(values))
  }

  /** The type or macro a line is about. */
  function Subject(l: Line): string {
    match l
    case Define(m, _) => m
    case _ => l.typeName
  }

  /** The `print` of any catalog entry; a macro is written back as a
      definition. Every line is about the entry itself, and only a struct
      warns. */
  function Render(cfg: Config, e: Entry): (r: Output)
    ensures forall i :: 0 <= i < |r.lines| ==> Subject(r.lines[i]) == e.name
    ensures e.StructEntry? ==> |r.lines| == |e.fields| + 1
    ensures e.EnumEntry? ==> |r.lines| == |e.values| && r.warnings == []
    ensures e.MacroEntry? ==> r == Output([Define(e.name, e.value)], [])
  {
    match e
    case StructEntry(name, size, fields) => RenderStruct(cfg.flexible, name, size, fields)
    case EnumEntry(name, values) => Output(RenderEnum(cfg.extendibleEnums, name, values), [])
    case MacroEntry(name, value) => Output([Define(name, value)], [])
  }

  /** What the entry under key k writes; a key absent from the catalog
      writes nothing. */
  function EntryOutput(cfg: Config, cat: Catalog, k: string): Output {
    if k in cat then Render(cfg, cat[k]) else Output([], [])
  }

  /** The lines written for the entry under key k. */
  function EntryLines(cfg: Config, cat: Catalog, k: string): seq<Line> {
    EntryOutput(cfg, cat, k).lines
  }

  /** The loop over the catalog: the entries under `keys`, in that order. */
  function RenderAll(cfg: Config, cat: Catalog, keys: seq<string>): (r: Output)
    ensures (forall i :: 0 <= i < |keys| ==> keys[i] !in cat) ==> r == Output([], [])
  {
    if |keys| == 0 then Output([], [])
    else
      var head := EntryOutput(cfg, cat, keys[0]);
      var rest := RenderAll(cfg, cat, keys[1..]);
      Output(head.lines + rest.lines, head.warnings + rest.warnings)
  }

  /** The output holds the lines of every listed entry, and nothing else. */
  lemma {:induction false} RenderAllContents(cfg: Config, cat: Catalog, keys: seq<string>)
    ensures forall l :: l in RenderAll(cfg, cat, keys).lines
              ==> exists i :: 0 <= i < |keys| && l in EntryLines(cfg, cat, keys[i])
    ensures forall i, l :: 0 <= i < |keys| && l in EntryLines(cfg, cat, keys[i]) ==> l in RenderAll(cfg, cat, keys).lines
    decreases |keys|
  {
    if |keys| > 0 {
      RenderAllContents(cfg, cat, keys[1..]);
      RenderAllStep(cfg, cat, keys, EntryLines(cfg, cat, keys[0]), RenderAll(cfg, cat, keys[1..]).lines);
    }
  }

  /** The inductive step of `RenderAll`, on its own. */
  lemma RenderAllStep(cfg: Config, cat: Catalog, keys: seq<string>, head: seq<Line>, rest: seq<Line>)
    requires |keys| > 0
    requires head == EntryLines(cfg, cat, keys[0])
    requires forall l :: l in rest ==> exists i :: 0 <= i < |keys[1..]| && l in EntryLines(cfg, cat, keys[1..][i])
    requires forall i, l :: 0 <= i < |keys[1..]| && l in EntryLines(cfg, cat, keys[1..][i]) ==> l in rest
    ensures forall l :: l in head + rest ==> exists i :: 0 <= i < |keys| && l in EntryLines(cfg, cat, keys[i])
    ensures forall i, l :: 0 <= i < |keys| && l in EntryLines(cfg, cat, keys[i]) ==> l in head + rest
  {
    forall l | l in head + rest
      ensures exists i :: 0 <= i < |keys| && l in EntryLines(cfg, cat, keys[i])
    {
      if l !in head {
        var i :| 0 <= i < |keys[1..]| && l in EntryLines(cfg, cat, keys[1..][i]);
        assert keys[i + 1] == keys[1..][i];
      }
    }
    forall i, l | 0 <= i < |keys| && l in EntryLines(cfg, cat, keys[i])
      ensures l in head + rest
    {
      if i > 0 {
        assert keys[1..][i - 1] == keys[i];
      }
    }
  }

  /** The entries are written as whole blocks, one after another in key
      order: rendering `a + b` writes the blocks of `a`, then those of `b`. */
  lemma {:induction false} RenderAllAppend(cfg: Config, cat: Catalog, a: seq<string>, b: seq<string>)
    ensures RenderAll(cfg, cat, a + b).lines == RenderAll(cfg, cat, a).lines + RenderAll(cfg, cat, b).lines
    decreases |a|
  {
    if |a| == 0 {
      assert a + b == b;
    } else {
      var ab := a + b;
      TailOfAppend(a, b);
      RenderAllUnfold(cfg, cat, ab);
      RenderAllUnfold(cfg, cat, a);
      RenderAllAppend(cfg, cat, a[1..], b);
      AppendAssociative(EntryLines(cfg, cat, a[0]), RenderAll(cfg, cat, a[1..]).lines, RenderAll(cfg, cat, b).lines);
    }
  }

  lemma AppendAssociative(x: seq<Line>, y: seq<Line>, z: seq<Line>)
    ensures x + (y + z) == (x + y) + z
  {
  }

  /** The head and tail of a concatenation whose left part is not empty. */
  lemma TailOfAppend(a: seq<string>, b: seq<string>)
    requires |a| > 0
    ensures (a + b)[0] == a[0] && (a + b)[1..] == a[1..] + b
  {
  }

  /** One step of the loop over the catalog: the first key's block, then the
      rest. */
  lemma RenderAllUnfold(cfg: Config, cat: Catalog, keys: seq<string>)
    requires |keys| > 0
    ensures RenderAll(cfg, cat, keys).lines == EntryLines(cfg, cat, keys[0]) + RenderAll(cfg, cat, keys[1..]).lines
  {
  }

  /** A single key writes exactly that entry's block. */
  lemma RenderAllSingle(cfg: Config, cat: Catalog, k: string)
    ensures RenderAll(cfg, cat, [k]).lines == EntryLines(cfg, cat, k)
  {
    assert RenderAll(cfg, cat, [k][1..]).lines == [];
  }

  // ---- Properties of the renderers ----

  /** The names of a sequence of fields are pairwise different, as the
      members of a C struct are. */
  predicate DistinctFieldNames(fields: seq<Field>) {
    forall i, j :: 0 <= i < j < |fields| ==> fields[i].name != fields[j].name
  }

  predicate DistinctMemberNames(values: seq<Enumerator>) {
    forall i, j :: 0 <= i < j < |values| ==> values[i].name != values[j].name
  }

  predicate IsSizeLine(l: Line) {
    l.SizeEq? || l.SizeGe?
  }

  /** A struct renders as exactly one size assertion followed by one line per
      field: the growable form exactly for the structs listed as flexible, with
      the recorded size. */
  lemma StructRenderShape(flexible: set<string>, name: string, size: nat, fields: seq<Field>)
    ensures var r := RenderStruct(flexible, name, size, fields);
            && |r.lines| == 1 + |fields|
            && (r.lines[0] == SizeGe(name, size) <==> name in flexible)
            && (r.lines[0] == SizeEq(name, size) <==> name !in flexible)
            && (forall i :: 1 <= i < |r.lines| ==> !IsSizeLine(r.lines[i]))
            && (forall i :: 0 <= i < |fields| ==> r.lines[i + 1].typeName == name && r.lines[i + 1].field == fields[i].name
                                                  && r.lines[i + 1].offset == fields[i].offset)
  {
    var r := RenderStruct(flexible, name, size, fields);
    var body := FieldLines(name, fields, LastFieldName(fields));
    assert r.lines == [r.lines[0]] + body;
    forall i | 0 <= i < |fields|
      ensures r.lines[i + 1] == body[i]
      ensures body[i].FieldCheck? || body[i].FieldFlexible?
    {
    }
  }

  /** With distinct field names, a field gets the flexible-tail form exactly
      when it is the last one and its size is unknown, whatever the struct's
      growth policy; every other field gets the exact field check with its
      recorded size, and only a non-last field of unknown size is warned
      about. */
  lemma FlexibleTailOnlyLast(flexible: set<string>, name: string, size: nat, fields: seq<Field>, i: nat)
    requires DistinctFieldNames(fields)
    requires i < |fields|
    ensures var r := RenderStruct(flexible, name, size, fields);
            && (r.lines[i + 1].FieldFlexible? <==> i == |fields| - 1 && fields[i].size.Unknown?)
            && (!r.lines[i + 1].FieldFlexible? ==> r.lines[i + 1] == FieldCheck(name, fields[i].name, fields[i].offset, SizeArg(fields[i].size)))
            && (FieldSizeUnknown(name, fields[i].name) in r.warnings <==> i < |fields| - 1 && fields[i].size.Unknown?)
  {
    var r := RenderStruct(flexible, name, size, fields);
    var last := LastFieldName(fields);
    FieldWarningsContents(name, fields, last);
    if FieldSizeUnknown(name, fields[i].name) in r.warnings {
      var j :| 0 <= j < |fields| && fields[j].size.Unknown? && fields[j].name != last
               && FieldSizeUnknown(name, fields[i].name) == FieldSizeUnknown(name, fields[j].name);
      assert i == j;
    }
  }

  /** An enum renders as one line per member, in declaration order; with
      distinct member names, the growable form goes to the last member of an
      extendible enum and to no other member. */
  lemma EnumRenderShape(extendible: set<string>, name: string, values: seq<Enumerator>, i: nat)
    requires DistinctMemberNames(values)
    requires i < |values|
    ensures var r := RenderEnum(extendible, name, values);
            && |r| == |values|
            && (r[i].EnumValGe? <==> name in extendible && i == |values| - 1)
            && r[i].typeName == name && r[i].member == values[i].name && r[i].value == values[i].value
  {
  }

  /** Growing an extendible enum by a new last member keeps every earlier
      line, except that the former last member's growable line becomes an
      exact one. */
  lemma EnumAppendRender(extendible: set<string>, name: string, values: seq<Enumerator>, m: Enumerator)
    requires name in extendible
    requires DistinctMemberNames(values + [m])
    requires |values| > 0
    ensures var before := RenderEnum(extendible, name, values);
            var after := RenderEnum(extendible, name, values + [m]);
            && after[..|values| - 1] == before[..|values| - 1]
            && before[|values| - 1] == EnumValGe(name, values[|values| - 1].name, values[|values| - 1].value)
            && after[|values| - 1] == EnumValEq(name, values[|values| - 1].name, values[|values| - 1].value)
            && after[|values|] == EnumValGe(name, m.name, m.value)
  {
    var vs := values + [m];
    assert forall i :: 0 <= i < |values| ==> vs[i] == values[i];
    assert values[|values| - 1].name != m.name by {
      assert vs[|values| - 1].name != vs[|values|].name;
    }
    forall i | 0 <= i < |values| - 1
      ensures values[i].name != values[|values| - 1].name && values[i].name != m.name
    {
      assert vs[i].name != vs[|values| - 1].name;
      assert vs[i].name != vs[|values|].name;
    }
  }

  /** Appending fields after fields of known size leaves the field lines of
      the earlier fields as they were, whatever the last name becomes. */
  lemma FieldLinesKnownPrefix(name: string, fields: seq<Field>, extra: seq<Field>, last: string, last': string)
    requires forall i :: 0 <= i < |fields| ==> fields[i].size.Known?
    ensures FieldLines(name, fields + extra, last')[..|fields|] == FieldLines(name, fields, last)
  {
    var before := FieldLines(name, fields, last);
    var after := FieldLines(name, fields + extra, last');
    forall i | 0 <= i < |fields|
      ensures after[i] == before[i]
    {
      assert (fields + extra)[i] == fields[i];
    }
  }

  /** Appending fields, of any size, after fields that all have known size
      keeps every earlier field line. */
  lemma StructAppendRender(flexible: set<string>, name: string, size: nat, size': nat, fields: seq<Field>, extra: seq<Field>)
    requires forall i :: 0 <= i < |fields| ==> fields[i].size.Known?
    ensures var before := RenderStruct(flexible, name, size, fields);
            var after := RenderStruct(flexible, name, size', fields + extra);
            after.lines[1..|fields| + 1] == before.lines[1..]
  {
    var all := fields + extra;
    var before := FieldLines(name, fields, LastFieldName(fields));
    var after := FieldLines(name, all, LastFieldName(all));
    FieldLinesKnownPrefix(name, fields, extra, LastFieldName(fields), LastFieldName(all));
    var b := RenderStruct(flexible, name, size, fields).lines;
    var a := RenderStruct(flexible, name, size', all).lines;
    assert b == [b[0]] + before;
    assert a == [a[0]] + after;
    assert a[1..|fields| + 1] == after[..|fields|];
  }

}

=== FILE: scenarios.dfy ===
/** Small worked cases: a struct under the exact policy, an extendible enum,
    and a macro written back verbatim. */
module Scenarios {
  import opened Abi
  import opened MacroDef
  import opened Render
  import opened Optional
  import opened Collector
  import Allow = AllowList

  /** A 16-byte struct with two 4-byte fields, under the exact policy. */
  lemma ExactStructLines()
    ensures RenderStruct({}, "Foo", 16, [Field("a", Known(4), 0), Field("b", Known(4), 4)]).lines
            == [SizeEq("Foo", 16), FieldCheck("Foo", "a", 0, 4), FieldCheck("Foo", "b", 4, 4)]
  {
  }

  /** A struct whose last field has no size ends in the flexible-tail form. */
  lemma FlexibleTailLines()
    ensures RenderStruct({}, "Msg", 8, [Field("len", Known(8), 0), Field("data", Unknown, 8)])
            == Output([SizeEq("Msg", 8), FieldCheck("Msg", "len", 0, 8), FieldFlexible("Msg", "data", 8)], [])
  {
  }

  /** An extendible enum: the last member gets the growable form. */
  lemma ExtendibleEnumLines()
    ensures RenderEnum({"Bar"}, "Bar", [Enumerator("X", 1), Enumerator("Y", 2)])
            == [EnumValEq("Bar", "X", 1), EnumValGe("Bar", "Y", 2)]
  {
  }

  /** Under the source's own policy, `GspSystemInfo` may grow: its size is
      checked with the at-least form. */
  lemma SourcePolicyGrowableStruct()
    ensures RenderStruct(SourceFlexible, "GspSystemInfo", 8, [Field("a", Known(8), 0)]).lines
            == [SizeGe("GspSystemInfo", 8), FieldCheck("GspSystemInfo", "a", 0, 8)]
  {
  }

  /** Under the source's own policy, the last member of `NV_VGPU_MSG_EVENT`
      may grow, and the last member of any other enum may not. */
  lemma SourcePolicyExtendibleEnum()
    ensures RenderEnum(SourceExtendibleEnums, "NV_VGPU_MSG_EVENT", [Enumerator("A", 1), Enumerator("B", 2)])
            == [EnumValEq("NV_VGPU_MSG_EVENT", "A", 1), EnumValGe("NV_VGPU_MSG_EVENT", "B", 2)]
    ensures RenderEnum(SourceExtendibleEnums, "OTHER", [Enumerator("A", 1), Enumerator("B", 2)])
            == [EnumValEq("OTHER", "A", 1), EnumValEq("OTHER", "B", 2)]
  {
  }

  /** The definition text `FOO 1+2` splits into the name `FOO` and the
      unevaluated value `1+2`. */
  lemma MacroWrittenVerbatim()
    ensures FromDefinition("FOO 1+2") == MacroEntry("FOO", "1+2")
  {
    assert "FOO 1+2" == "FOO" + Spaces(1) + "1+2";
    JoinThenSplit("FOO", 1, "1+2");
  }

  /** The identifier `FOO`, defined as `FOO 1+2` and listed by exact name, is
      scanned into the catalog and written back as `#define FOO 1+2`. */
  lemma MacroScannedAndWritten()
    ensures var allow := Allow.AllowList({"FOO"}, []);
            var cat := ScanMacros(allow, map[], [Identifier("FOO", Some("FOO 1+2"))]);
            RenderAll(Config(allow, {}, {}), cat, ["FOO"]).lines == [Define("FOO", "1+2")]
  {
    var allow := Allow.AllowList({"FOO"}, []);
    var cat := ScanMacros(allow, map[], [Identifier("FOO", Some("FOO 1+2"))]);
    MacroWrittenVerbatim();
    assert cat["FOO"] == MacroEntry("FOO", "1+2");
    RenderAllSingle(Config(allow, {}, {}), cat, "FOO");
  }

}

=== FILE: semantics.dfy ===
/** What a generated line asserts about a later build: the `ABI_CHECK_*`
    macros the generated file defines, read against the layouts and enum
    values of that build (a catalog of the same shape). This is what makes
    the exact form catch every change and the growable form tolerate growth
    at the end. */
module Semantics {
  import opened Optional
  import opened Abi
  import opened Render

  /** The first field of that name, as `offsetof` and member access find it. */
  function FieldNamed(fields: seq<Field>, n: string): (r: Option<Field>)
    ensures r.Some? ==> r.value in fields && r.value.name == n
    ensures r.None? ==> forall i :: 0 <= i < |fields| ==> fields[i].name != n
  {
    if |fields| == 0 then None
    else if fields[0].name == n then Some(fields[0])
    else FieldNamed(fields[1..], n)
  }

  /** The value of the first member of that name. */
  function MemberValue(values: seq<Enumerator>, n: string): (r: Option<int>)
    ensures r.Some? ==> Enumerator(n, r.value) in values
    ensures r.None? ==> forall i :: 0 <= i < |values| ==> values[i].name != n
  {
    if |values| == 0 then None
    else if values[0].name == n then Some(values[0].value)
    else MemberValue(values[1..], n)
  }

  /** Whether a line compiles against the build described by `world`.
      A field of unknown size never satisfies a size check: its `sizeof` is
      not a byte count. An enum check names only the constant, so it looks
      the constant up in whichever enum defines it; the enum's own name is
      not checked. A `#define` is accepted when no macro of that name is
      defined differently. */
  predicate Holds(l: Line, world: Catalog) {
    match l
    case SizeEq(t, n) => t in world && world[t].StructEntry? && world[t].size == n
    case SizeGe(t, n) => t in world && world[t].StructEntry? && world[t].size >= n
    case FieldCheck(t, f, off, sz) =>
      && t in world && world[t].StructEntry?
      && (match FieldNamed(world[t].fields, f)
          case None => false
          case Some(x) => x.offset == off && x.size.Known? && x.size.bytes == sz)
    case FieldFlexible(t, f, off) =>
      && t in world && world[t].StructEntry?
      && (match FieldNamed(world[t].fields, f)
          case None => false
          case Some(x) => x.offset == off && off <= world[t].size)
    case EnumValEq(_, m, v) => ConstantKept(world, Enumerator(m, v), false)
    case EnumValGe(_, m, v) => ConstantKept(world, Enumerator(m, v), true)
    case Define(n, b) =>
      forall k :: k in world && world[k].MacroEntry? && world[k].name == n ==> world[k].value == b
  }

  predicate AllHold(lines: seq<Line>, world: Catalog) {
    forall i :: 0 <= i < |lines| ==> Holds(lines[i], world)
  }

  /** What a build must keep of one recorded field: the same offset, and the
      same size unless the field is a flexible tail, whose offset must instead
      stay within the struct. A non-tail field recorded with an unknown size is
      checked against -1, which no build meets. */
  predicate FieldKept(ws: seq<Field>, wsize: nat, f: Field, last: string) {
    match FieldNamed(ws, f.name)
    case None => false
    case Some(x) =>
      x.offset == f.offset && (if IsFlexibleTail(f, last) then f.offset <= wsize else f.size.Known? && x.size == f.size)
  }

  /** Only a flexible tail may have an unknown size. */
  predicate SizesResolved(fields: seq<Field>) {
    forall i :: 0 <= i < |fields| && fields[i].size.Unknown? ==> fields[i].name == LastFieldName(fields)
  }

  /** The assertions written for a struct pass exactly when the build has a
      struct of that name whose size is the recorded one (exact policy) or at
      least the recorded one (growable policy), and which keeps every recorded
      field. */
  lemma StructAssertionsMeaning(flexible: set<string>, name: string, size: nat, fields: seq<Field>, world: Catalog)
    ensures AllHold(RenderStruct(flexible, name, size, fields).lines, world)
            <==> && name in world && world[name].StructEntry?
                 && (if name in flexible then world[name].size >= size else world[name].size == size)
                 && forall i :: 0 <= i < |fields|
                      ==> FieldKept(world[name].fields, world[name].size, fields[i], LastFieldName(fields))
  {
    var lines := RenderStruct(flexible, name, size, fields).lines;
    var last := LastFieldName(fields);
    if AllHold(lines, world) {
      assert Holds(lines[0], world);
      forall i | 0 <= i < |fields|
        ensures FieldKept(world[name].fields, world[name].size, fields[i], last)
      {
        assert Holds(lines[i + 1], world);
      }
    }
    if && name in world && world[name].StructEntry?
       && (if name in flexible then world[name].size >= size else world[name].size == size)
       && forall i :: 0 <= i < |fields| ==> FieldKept(world[name].fields, world[name].size, fields[i], last)
    {
      forall j | 0 <= j < |lines|
        ensures Holds(lines[j], world)
      {
        if j > 0 {
          assert FieldKept(world[name].fields, world[name].size, fields[j - 1], last);
        }
      }
    }
  }

  /** What a build must keep of one recorded member: its value, or, for the
      growable last member, at least its value. */
  predicate MemberKept(ws: seq<Enumerator>, m: Enumerator, mayGrow: bool) {
    match MemberValue(ws, m.name)
    case None => false
    case Some(x) => if mayGrow then x >= m.value else x == m.value
  }

  /** Enumerator constants share C's one scope of ordinary identifiers: the
      build defines the constant `m.name` in some enum, keeping its value (or,
      when it may grow, at least its value). */
  predicate ConstantKept(world: Catalog, m: Enumerator, mayGrow: bool) {
    exists k :: k in world && world[k].EnumEntry? && MemberKept(world[k].values, m, mayGrow)
  }

  /** No two enums of a build define a constant of the same name, as C
      demands of one translation unit. */
  ghost predicate UniqueConstants(world: Catalog) {
    forall k, k', n :: && k in world && k' in world && world[k].EnumEntry? && world[k'].EnumEntry?
                       && MemberValue(world[k].values, n).Some? && MemberValue(world[k'].values, n).Some?
                       ==> k == k'
  }

  lemma MemberLineHolds(name: string, m: Enumerator, growable: bool, last: string, world: Catalog)
    ensures Holds(MemberLine(name, m, growable, last), world) <==> ConstantKept(world, m, growable && m.name == last)
  {
  }

  /** The assertions written for an enum with distinct member names pass
      exactly when the build defines every recorded member as a constant with
      its value, except that the last member of an extendible enum may have
      grown. Which enum holds the constant is not checked. */
  lemma EnumAssertionsMeaning(extendible: set<string>, name: string, values: seq<Enumerator>, world: Catalog)
    requires DistinctMemberNames(values)
    ensures AllHold(RenderEnum(extendible, name, values), world)
            <==> forall i :: 0 <= i < |values|
                   ==> ConstantKept(world, values[i], name in extendible && i == |values| - 1)
  {
    var lines := RenderEnum(extendible, name, values);
    var n := |values| - 1;
    var g := name in extendible;
    forall i | 0 <= i < |values|
      ensures Holds(lines[i], world) <==> ConstantKept(world, values[i], g && i == n)
    {
      assert lines[i] == MemberLine(name, values[i], g, values[n].name);
      MemberLineHolds(name, values[i], g, values[n].name, world);
      assert values[i].name == values[n].name <==> i == n;
    }
  }

  /** The enum named in an assertion is never consulted: under the same
      policy, the assertions written for one enum pass exactly when those
      written for the same members under another name do. A renamed enum
      whose members keep their values passes. */
  lemma EnumNameNotChecked(extendible: set<string>, name: string, name': string, values: seq<Enumerator>, world: Catalog)
    requires (name in extendible) == (name' in extendible)
    ensures AllHold(RenderEnum(extendible, name, values), world) == AllHold(RenderEnum(extendible, name', values), world)
  {
    var a, b := RenderEnum(extendible, name, values), RenderEnum(extendible, name', values);
    var last := LastMemberName(values);
    forall i | 0 <= i < |values|
      ensures Holds(a[i], world) == Holds(b[i], world)
    {
      MemberLineHolds(name, values[i], name in extendible, last, world);
      MemberLineHolds(name', values[i], name' in extendible, last, world);
    }
  }

  /** The assertions written for an enum with distinct member names hold
      against a build holding that enum. */
  lemma RenderedEnumHoldsForItself(extendible: set<string>, name: string, values: seq<Enumerator>, world: Catalog)
    requires DistinctMemberNames(values)
    requires name in world && world[name] == EnumEntry(name, values)
    ensures AllHold(RenderEnum(extendible, name, values), world)
  {
    EnumAssertionsMeaning(extendible, name, values, world);
    forall i | 0 <= i < |values|
      ensures ConstantKept(world, values[i], name in extendible && i == |values| - 1)
    {
      MemberValueFinds(values, i);
      assert MemberKept(world[name].values, values[i], name in extendible && i == |values| - 1);
    }
  }

  /** The first match of a name found in a prefix stays the first match after
      appending. */
  lemma {:induction false} FieldNamedAppend(a: seq<Field>, b: seq<Field>, n: string)
    requires FieldNamed(a, n).Some?
    ensures FieldNamed(a + b, n) == FieldNamed(a, n)
    decreases |a|
  {
    assert (a + b)[0] == a[0];
    if a[0].name != n {
      assert (a + b)[1..] == a[1..] + b;
      FieldNamedAppend(a[1..], b, n);
    }
  }

  /** With distinct names, looking a field up by its name finds that field. */
  lemma {:induction false} FieldNamedFinds(fields: seq<Field>, i: nat)
    requires DistinctFieldNames(fields)
    requires i < |fields|
    ensures FieldNamed(fields, fields[i].name) == Some(fields[i])
    decreases i
  {
    if i > 0 {
      assert fields[0].name != fields[i].name;
      assert DistinctFieldNames(fields[1..]) by {
        forall a, b | 0 <= a < b < |fields[1..]|
          ensures fields[1..][a].name != fields[1..][b].name
        {
          assert fields[1..][a] == fields[a + 1] && fields[1..][b] == fields[b + 1];
        }
      }
      assert fields[1..][i - 1] == fields[i];
      FieldNamedFinds(fields[1..], i - 1);
    }
  }

  /** Growth tolerance: a growable struct whose fields all have known size
      still passes its recorded assertions after fields are appended and the
      struct grows. The exact form fails as soon as the size changes. */
  lemma GrowableStructToleratesAppend(flexible: set<string>, name: string, size: nat, fields: seq<Field>,
                                      size': nat, extra: seq<Field>, world: Catalog)
    requires forall i :: 0 <= i < |fields| ==> fields[i].size.Known?
    requires DistinctFieldNames(fields)
    requires size' >= size
    requires name in world && world[name] == StructEntry(name, size', fields + extra)
    ensures name in flexible ==> AllHold(RenderStruct(flexible, name, size, fields).lines, world)
    ensures name !in flexible && size' != size ==> !AllHold(RenderStruct(flexible, name, size, fields).lines, world)
  {
    StructAssertionsMeaning(flexible, name, size, fields, world);
    forall i | 0 <= i < |fields|
      ensures FieldKept(fields + extra, size', fields[i], LastFieldName(fields))
    {
      FieldNamedFinds(fields, i);
      FieldNamedAppend(fields, extra, fields[i].name);
    }
  }

  /** With distinct names, looking a member up by its name finds its value. */
  lemma {:induction false} MemberValueFinds(values: seq<Enumerator>, i: nat)
    requires DistinctMemberNames(values)
    requires i < |values|
    ensures MemberValue(values, values[i].name) == Some(values[i].value)
    decreases i
  {
    if i > 0 {
      assert values[0].name != values[i].name;
      assert DistinctMemberNames(values[1..]) by {
        forall a, b | 0 <= a < b < |values[1..]|
          ensures values[1..][a].name != values[1..][b].name
        {
          assert values[1..][a] == values[a + 1] && values[1..][b] == values[b + 1];
        }
      }
      assert values[1..][i - 1] == values[i];
      MemberValueFinds(values[1..], i - 1);
    }
  }

  /** Enum growth tolerance: when members are inserted before the last member
      of an extendible enum and that last member's value grows, the recorded
      assertions still pass; for an enum under the exact policy they fail as
      soon as the last value changes. */
  lemma GrowableEnumToleratesInsertBeforeLast(extendible: set<string>, name: string, values: seq<Enumerator>,
                                              inserted: seq<Enumerator>, v': int, world: Catalog)
    requires |values| > 0
    requires var nv := values[..|values| - 1] + inserted + [Enumerator(values[|values| - 1].name, v')];
             DistinctMemberNames(nv) && name in world && world[name] == EnumEntry(name, nv)
    requires v' >= values[|values| - 1].value
    ensures name in extendible ==> AllHold(RenderEnum(extendible, name, values), world)
    ensures name !in extendible && v' != values[|values| - 1].value && UniqueConstants(world)
            ==> !AllHold(RenderEnum(extendible, name, values), world)
  {
    var n := |values| - 1;
    var nv := values[..n] + inserted + [Enumerator(values[n].name, v')];
    assert forall i :: 0 <= i < n ==> nv[i] == values[i];
    assert nv[|nv| - 1] == Enumerator(values[n].name, v');
    assert DistinctMemberNames(values) by {
      forall a, b | 0 <= a < b < |values|
        ensures values[a].name != values[b].name
      {
        if b < n {
          assert nv[a].name != nv[b].name;
        } else {
          assert nv[a].name != nv[|nv| - 1].name;
        }
      }
    }
    EnumAssertionsMeaning(extendible, name, values, world);
    MemberValueFinds(nv, |nv| - 1);
    if name in extendible {
      forall i | 0 <= i < |values|
        ensures ConstantKept(world, values[i], i == n)
      {
        if i < n {
          MemberValueFinds(nv, i);
        }
        assert MemberKept(world[name].values, values[i], i == n);
      }
    }
  }

  /** A struct with a field of unknown size other than its tail is written
      with an `ABI_CHECK_FIELD` of size -1, so its assertions pass in no
      build. */
  lemma UnresolvedStructNeverHolds(flexible: set<string>, name: string, size: nat, fields: seq<Field>, world: Catalog)
    requires !SizesResolved(fields)
    ensures !AllHold(RenderStruct(flexible, name, size, fields).lines, world)
  {
    StructAssertionsMeaning(flexible, name, size, fields, world);
    var i :| 0 <= i < |fields| && fields[i].size.Unknown? && fields[i].name != LastFieldName(fields);
    assert !IsFlexibleTail(fields[i], LastFieldName(fields));
  }

  /** The assertions written for a well-formed struct hold against the struct
      itself. */
  lemma RenderedStructHoldsForItself(flexible: set<string>, name: string, size: nat, fields: seq<Field>, world: Catalog)
    requires SizesResolved(fields)
    requires DistinctFieldNames(fields)
    requires forall i :: 0 <= i < |fields| ==> fields[i].offset <= size
    requires name in world && world[name] == StructEntry(name, size, fields)
    ensures AllHold(RenderStruct(flexible, name, size, fields).lines, world)
  {
    StructAssertionsMeaning(flexible, name, size, fields, world);
    forall i | 0 <= i < |fields|
      ensures FieldKept(fields, size, fields[i], LastFieldName(fields))
    {
      FieldNamedFinds(fields, i);
    }
  }

}

=== FILE: strings.dfy ===
/** Strings as the checker compares them: prefixes, the lexicographic order of
    std::string, and the ascending enumeration a std::set or std::map of
    strings yields when iterated. */
module Strings {

  /** True when p is an initial segment of s. */
  predicate IsPrefix(p: string, s: string) {
    |p| <= |s| && s[..|p|] == p
  }

  /** The order of std::string's operator<: characters compared one by one by
      code, and a proper prefix sorts before the longer string. */
  predicate Less(a: string, b: string)
    decreases |a|
  {
    if |a| == 0 then |b| > 0
    else if |b| == 0 then false
    else if a[0] != b[0] then a[0] < b[0]
    else Less(a[1..], b[1..])
  }

  lemma {:induction false} LessIrreflexive(a: string)
    ensures !Less(a, a)
    decreases |a|
  {
    if |a| > 0 {
      LessIrreflexive(a[1..]);
    }
  }

  lemma {:induction false} LessTransitive(a: string, b: string, c: string)
    requires Less(a, b) && Less(b, c)
    ensures Less(a, c)
    decreases |a|
  {
    if |a| > 0 && a[0] == b[0] && b[0] == c[0] {
      LessTransitive(a[1..], b[1..], c[1..]);
    }
  }

  lemma {:induction false} LessTotal(a: string, b: string)
    requires a != b
    ensures Less(a, b) || Less(b, a)
    decreases |a|
  {
    if |a| > 0 && |b| > 0 && a[0] == b[0] {
      assert a == [a[0]] + a[1..] && b == [b[0]] + b[1..];
      LessTotal(a[1..], b[1..]);
    }
  }

  lemma LessAsymmetric(a: string, b: string)
    requires Less(a, b)
    ensures !Less(b, a)
  {
    if Less(b, a) {
      LessTransitive(a, b, a);
      LessIrreflexive(a);
    }
  }

  /** Every element sorts strictly before every later one; in particular no
      element occurs twice. */
  predicate StrictlyAscending(s: seq<string>) {
    forall i, j :: 0 <= i < j < |s| ==> Less(s[i], s[j])
  }

  /** A strictly ascending sequence holds each of its elements exactly once. */
  lemma AscendingHasNoDuplicates(s: seq<string>, i: int, j: int)
    requires StrictlyAscending(s)
    requires 0 <= i < |s| && 0 <= j < |s| && s[i] == s[j]
    ensures i == j
  {
    if i < j {
      LessIrreflexive(s[i]);
    } else if j < i {
      LessIrreflexive(s[j]);
    }
  }

  /** Places x in a strictly ascending sequence at the position that keeps it
      strictly ascending. */
  function Insert(s: seq<string>, x: string): (r: seq<string>)
    requires StrictlyAscending(s)
    requires x !in s
    ensures StrictlyAscending(r)
    ensures forall y :: y in r <==> y in s || y == x
    ensures |r| == |s| + 1
  {
    if |s| == 0 then [x]
    else if Less(x, s[0]) then
      assert forall j :: 0 < j < |s| ==> Less(x, s[j]) by {
        forall j | 0 < j < |s| {
          LessTransitive(x, s[0], s[j]);
        }
      }
      [x] + s
    else
      LessTotal(x, s[0]);
      var t := Insert(s[1..], x);
      assert forall y :: y in s[1..] ==> Less(s[0], y) by {
        forall y | y in s[1..]
          ensures Less(s[0], y)
        {
          var j :| 0 <= j < |s[1..]| && s[1..][j] == y;
          assert s[j + 1] == y;
        }
      }
      assert forall k :: 0 <= k < |t| ==> Less(s[0], t[k]) by {
        forall k | 0 <= k < |t|
          ensures Less(s[0], t[k])
        {
          assert t[k] in t;
        }
      }
      [s[0]] + t
  }

  /** Enumerates a finite set of strings in ascending order, as iterating a
      std::set<std::string> or the keys of a std::map<std::string, _> does. */
  method SortSet(s: set<string>) returns (r: seq<string>)
    ensures StrictlyAscending(r)
    ensures forall y :: y in r <==> y in s
  {
    r := [];
    var rest := s;
    while rest != {}
      invariant rest <= s
      invariant StrictlyAscending(r)
      invariant forall y :: y in r <==> y in s && y !in rest
      decreases rest
    {
      var x :| x in rest;
      r := Insert(r, x);
      rest := rest - {x};
    }
  }

  lemma HasMember(s: seq<string>)
    requires s != []
    ensures exists y :: y in s
  {
    assert s[0] in s;
  }

  /** There is only one ascending enumeration of a set: whatever computes it,
      the order is determined by the elements alone. */
  lemma {:induction false} AscendingUnique(a: seq<string>, b: seq<string>)
    requires StrictlyAscending(a) && StrictlyAscending(b)
    requires forall y :: y in a <==> y in b
    ensures a == b
    decreases |a|
  {
    if |a| == 0 {
      if b != [] {
        HasMember(b);
        assert false;
      }
    } else {
      assert b != [] by {
        assert a[0] in b;
      }
      if a[0] != b[0] {
        assert b[0] in a;
        var i :| 0 <= i < |a| && a[i] == b[0];
        assert a[0] in b;
        var j :| 0 <= j < |b| && b[j] == a[0];
        assert Less(a[0], b[0]);
        assert Less(b[0], a[0]);
        LessAsymmetric(a[0], b[0]);
      }
      forall y
        ensures y in a[1..] <==> y in b[1..]
      {
        if y in a[1..] {
          var i :| 0 <= i < |a[1..]| && a[1..][i] == y;
          assert a[i + 1] == y;
          LessIrreflexive(a[0]);
          assert y != a[0];
          assert y in b;
          var j :| 0 <= j < |b| && b[j] == y;
          assert j != 0;
          assert b[1..][j - 1] == y;
        }
        if y in b[1..] {
          var j :| 0 <= j < |b[1..]| && b[1..][j] == y;
          assert b[j + 1] == y;
          LessIrreflexive(b[0]);
          assert y != b[0];
          assert y in a;
          var i :| 0 <= i < |a| && a[i] == y;
          assert i != 0;
          assert a[1..][i - 1] == y;
        }
      }
      AscendingUnique(a[1..], b[1..]);
      assert a == [a[0]] + a[1..] && b == [b[0]] + b[1..];
    }
  }

}
